=== FILE: README.md ===
# Track list queries and device-source decisions, in Dafny

This project models two pieces of the Banshee media player.

The first is the track list database model. It keeps the view state of the
library's track list:

- the filter text and the filter clause built from it;
- the sort column, with its direction, and the ORDER BY fragment;
- the join fragment and the structural condition;
- the artist and album id filters;
- the counts.

From these it assembles the SQL fragment the row cache reloads from, and the
COUNT query behind the unfiltered count. The model is an immutable
`ViewState` record (`TrackListModel`) with pure transitions (`Refilter`,
`Sort`, `Clear`, `Reload` and the setters), over pure query builders
(`TrackListQuery`).

The row cache is reduced to two things:

- a generation number `cacheId`, which every cache clear moves on;
- the count a reload reports, which is a parameter.

SQL text is checked by reading it back. `SqlText` holds an independent reader
for single-quoted literals, and `TrackListQuery` holds readers for LIKE
disjunctions and ORDER BY lists. The builders are proved to produce text that
reads back as the intended tests and terms.

The second piece is the decision logic of a digital audio player source
(`DapSource`, with string helpers in `DapText`):

- the icon names for a device;
- whether a track must be transcoded for the device;
- what happens to a track handed to the device;
- how the added-track count moves on the transcoder's callbacks;
- the space figures and the sync summary.

Services the source looks up at run time become parameters. These are the
profile manager's MIME-to-extension lookup, the preferred profile, whether a
transcoder exists, and whether the device's copy throws.

Source paths below are relative to the repository root.

## Model

| member | source | states |
|---|---|---|
| TrackListQuery.FilterClause | src/Core/Banshee.Services/Banshee.Collection.Database/TrackListDatabaseModel.cs:78-88 | No clause exactly when the filter text is null or empty. Otherwise the clause reads back as exactly three substring LIKE tests of the text (`%text%`), on CoreTracks.Title, CoreArtists.Name and CoreAlbums.Title, in that order. |
| TrackListQuery.DecodeFilterRender | src/Core/Banshee.Services/Banshee.Collection.Database/TrackListDatabaseModel.cs:83-86 | Any non-empty list of LIKE tests on space-free columns, rendered as ` AND (… OR …)`, reads back as the same list. |
| TrackListQuery.DecodeDisjunctionRender | src/Core/Banshee.Services/Banshee.Collection.Database/TrackListDatabaseModel.cs:84-86 | An OR-joined run of LIKE tests reads back as the same tests, with the text that follows left over. |
| TrackListQuery.FilterClauseMatchesSourceWithoutQuotes | src/Core/Banshee.Services/Banshee.Collection.Database/TrackListDatabaseModel.cs:83-86 | For filter text without a single quote, the escaped clause is the very text the source formats, up to the whitespace normalisation described under Left out. |
| TrackListQuery.FilterClauseAsWritten | src/Core/Banshee.Services/Banshee.Collection.Database/TrackListDatabaseModel.cs:78-88 | The clause as the source formats it: none exactly when the text is null or empty, and otherwise a parenthesised clause whose first LIKE pattern holds the filter text right after the opening `%`, unescaped. |
| TrackListQuery.QuoteBreaksAsWrittenFilter | src/Core/Banshee.Services/Banshee.Collection.Database/TrackListDatabaseModel.cs:83-86 | With a single quote in the text that is not immediately followed by another quote, the clause as the source formats it does not read back as the three intended tests: the first literal closes at the quote. |
| TrackListQuery.DontBreaksAsWrittenFilter | src/Core/Banshee.Services/Banshee.Collection.Database/TrackListDatabaseModel.cs:83-86 | The filter text `Don't` is such a case. |
| TrackListQuery.AscDesc | src/Core/Banshee.Services/Banshee.Collection.Database/TrackListDatabaseModel.cs:90-93 | The keyword is ` ASC` exactly when the direction is ascending, and ` DESC` exactly when it is descending. |
| TrackListQuery.Toggle | src/Core/Banshee.Services/Banshee.Collection.Database/TrackListDatabaseModel.cs:145-147 | Toggling always changes the direction. |
| TrackListQuery.SortTerms | src/Core/Banshee.Services/Banshee.Collection.Database/TrackListDatabaseModel.cs:102-130 | Only the keys track, artist, album and title sort. Each sort has exactly three distinct ordering expressions and always includes the artist name and the album title, so ties are broken. The key's own expression carries the chosen direction and every other term is ascending. The order is fixed per key: artist is artist, album, track number; album is album, artist, track number; track and title are artist, album, then the key's expression. |
| TrackListQuery.DecodeOrderRender | src/Core/Banshee.Services/Banshee.Collection.Database/TrackListDatabaseModel.cs:104-125 | A comma-joined ORDER BY list of space-free expressions reads back as the same terms and directions. |
| TrackListQuery.GenerateSortQueryPart | src/Core/Banshee.Services/Banshee.Collection.Database/TrackListDatabaseModel.cs:95-131 | No sort fragment for a null column or an unrecognised key. Otherwise the fragment reads back as exactly the three terms for the column's key and direction. |
| TrackListQuery.PrefixCondition | src/Core/Banshee.Services/Banshee.Collection.Database/TrackListDatabaseModel.cs:251-258 | Empty exactly when the condition is null or empty. Otherwise it is a space, the prefix, a space, the condition unchanged and a trailing space. |
| TrackListQuery.ConditionFragment | src/Core/Banshee.Services/Banshee.Collection.Database/TrackListDatabaseModel.cs:247-249 | Empty exactly when the condition is null or empty. Otherwise ` AND `, the condition unchanged, and a trailing space. |
| TrackListQuery.UnfilteredBase | src/Core/Banshee.Services/Banshee.Collection.Database/TrackListDatabaseModel.cs:168-169 | The base starts with the three tables, the join and ` WHERE ` followed by the fixed join condition. What follows that head is exactly a space and the condition fragment. It ends in a space, so an appended `AND ` starts a new token. |
| TrackListQuery.ReloadParts | src/Core/Banshee.Services/Banshee.Collection.Database/TrackListDatabaseModel.cs:171-189 | The base comes first. Artist ids, album ids, text filter and ORDER BY follow strictly in that order, each present exactly when its fragment is not null, and carrying that fragment. |
| TrackListQuery.ReloadFragment | src/Core/Banshee.Services/Banshee.Collection.Database/TrackListDatabaseModel.cs:167-191 | The reload fragment always starts with the unfiltered base. |
| TrackListQuery.IdFiltersFollowBase | src/Core/Banshee.Services/Banshee.Collection.Database/TrackListDatabaseModel.cs:168-181 | Without a text filter or sort, the fragment is the unfiltered base, then `AND ` and the artist id filter if present, then `AND ` and the album id filter if present. |
| TrackListQuery.OrderByIsLast | src/Core/Banshee.Services/Banshee.Collection.Database/TrackListDatabaseModel.cs:186-189 | A sorted fragment is the unsorted fragment followed by ` ORDER BY ` and the sort fragment. |
| TrackListQuery.OrderByPieceIsLast | src/Core/Banshee.Services/Banshee.Collection.Database/TrackListDatabaseModel.cs:186-189 | For any base and any id and text filters, the pieces with a sort render as the pieces without it followed by ` ORDER BY ` and the sort fragment. |
| TrackListQuery.TextFilterFollowsIdFilters | src/Core/Banshee.Services/Banshee.Collection.Database/TrackListDatabaseModel.cs:173-184 | An unsorted fragment with a text filter is the same fragment without it, followed by the filter clause, whatever the id filters. |
| TrackListQuery.TextFilterPieceFollows | src/Core/Banshee.Services/Banshee.Collection.Database/TrackListDatabaseModel.cs:173-184 | For any base and id filters, the unsorted pieces with a text filter render as those without it followed by the clause. |
| TrackListQuery.BareFragmentIsBase | src/Core/Banshee.Services/Banshee.Collection.Database/TrackListDatabaseModel.cs:168-191 | With no id filter, text filter or sort, the reload fragment is exactly the unfiltered base. |
| TrackListQuery.CountQuery | src/Core/Banshee.Services/Banshee.Collection.Database/TrackListDatabaseModel.cs:194-195 | The COUNT query is `SELECT COUNT(*) ` followed by the unfiltered base. Its only inputs are the join and the condition, never an id filter, the text filter or the sort. |
| TrackListModel.Refilter | src/Core/Banshee.Services/Banshee.Collection.Database/TrackListDatabaseModel.cs:133-139 | The filter clause is rebuilt from the stored text: none for null or empty text, otherwise three tests of it. The cache generation moves on and nothing else changes. |
| TrackListModel.SetFilter | src/Core/Banshee.Services/Banshee.Collection.Database/TrackListDatabaseModel.cs:222-229 | Storing filter text changes the stored text and nothing else: the filter clause, the reload fragment, the COUNT query and the cache are untouched. |
| TrackListModel.SetJoinFragment | src/Core/Banshee.Services/Banshee.Collection.Database/TrackListDatabaseModel.cs:231-237 | The join is stored, the clause is rebuilt from the stored text and the cache is cleared. Nothing else changes. |
| TrackListModel.SetCondition | src/Core/Banshee.Services/Banshee.Collection.Database/TrackListDatabaseModel.cs:239-245 | The condition is stored, the clause is rebuilt and the cache is cleared. An empty condition gives the same COUNT query as no condition. Nothing else changes. |
| TrackListModel.Sort | src/Core/Banshee.Services/Banshee.Collection.Database/TrackListDatabaseModel.cs:141-155 | Re-selecting the current column (the same column object, identified by id) flips the direction that object currently carries and keeps its key. Any other column, or none, is taken as given. The sort fragment matches the new column, the cache is cleared, and nothing else changes. |
| TrackListModel.SortTwiceRestores | src/Core/Banshee.Services/Banshee.Collection.Database/TrackListDatabaseModel.cs:141-155 | Re-selecting the current column object twice restores its direction and the sort fragment. |
| TrackListModel.SortAgainFlips | src/Core/Banshee.Services/Banshee.Collection.Database/TrackListDatabaseModel.cs:144-150 | Whatever column was selected, selecting that column object again flips its direction. |
| TrackListModel.FragmentIsSelectionThenOrder | src/Core/Banshee.Services/Banshee.Collection.Database/TrackListDatabaseModel.cs:167-191 | Any state's reload fragment is its row selection followed by the ORDER BY piece, if it sorts. |
| TrackListModel.SortOnlyOrders | src/Core/Banshee.Services/Banshee.Collection.Database/TrackListDatabaseModel.cs:141-155 | Sorting never changes which rows are selected, nor the COUNT query. Only the ORDER BY piece changes. |
| TrackListModel.Clear | src/Core/Banshee.Services/Banshee.Collection.Database/TrackListDatabaseModel.cs:157-163 | Both counts become 0 and the cache generation moves on. The queries and the rest of the state are kept. |
| TrackListModel.Reload | src/Core/Banshee.Services/Banshee.Collection.Database/TrackListDatabaseModel.cs:165-199 | The stored reload fragment is the one the current state assembles, so it starts with the unfiltered base. The counts are the cache's and the COUNT query's. Nothing else changes. |
| TrackListModel.SetArtistIdFilter | src/Core/Banshee.Services/Banshee.Collection.Database/TrackListDatabaseModel.cs:260-278 | The new artist filter is stored, the clause is rebuilt from the stored text and the cache is cleared. The fragment is reassembled from the new state. The counts are the cache's and the COUNT query's. Everything else, the album filter and the COUNT query included, stays as it was. |
| TrackListModel.SetAlbumIdFilter | src/Core/Banshee.Services/Banshee.Collection.Database/TrackListDatabaseModel.cs:280-298 | The same for the album filter: everything but the album filter, the clause, the cache, the fragment and the counts stays as it was, the artist filter included. |
| TrackListModel.Initial | src/Core/Banshee.Services/Banshee.Collection.Database/TrackListDatabaseModel.cs:64-76 | A new model has no filter text, clause, sort column or sort fragment, no join, condition or id filter, no stored reload fragment, zero counts, a view size of 0 (so a page size of 100) and a cache cleared once. Its fragment is the bare unfiltered base. |
| TrackListModel.EmptyFilterSelectsCountedRows | src/Core/Banshee.Services/Banshee.Collection.Database/TrackListDatabaseModel.cs:165-196 | With empty filter text and no id filters, after a refilter the COUNT query counts exactly the rows the reload selects. |
| TrackListModel.FetchCount | src/Core/Banshee.Services/Banshee.Collection.Database/TrackListDatabaseModel.cs:324-326 | The page size is always positive, and 100 when the view reports no rows. It is never smaller than the view, and equals five times the view wherever that fits in 32 bits. |
| TrackListModel.FetchCountAsWritten | src/Core/Banshee.Services/Banshee.Collection.Database/TrackListDatabaseModel.cs:324-326 | The page size as the source computes it: 100 for a view without rows, five times the rows while that fits in 32 bits, and otherwise a value congruent to five times the rows modulo 2^32. |
| TrackListModel.FetchCountAsWrittenOverflows | src/Core/Banshee.Services/Banshee.Collection.Database/TrackListDatabaseModel.cs:324-326 | In unchecked 32-bit arithmetic, a view of 429,496,730 rows makes the page size negative. |
| TrackListModel.SetRowsInView | src/Core/Banshee.Services/Banshee.Collection.Database/TrackListDatabaseModel.cs:308-311 | Setting the view size stores it and changes nothing else: the queries, the counts and the cache stay. |
| TrackListModel.IndexOf | src/Core/Banshee.Services/Banshee.Collection.Database/TrackListDatabaseModel.cs:201-208 | The index is non-negative exactly for library tracks, where it is the stored position. For any other track it is -1. |
| TrackListModel.GetItemFromReader | src/Core/Banshee.Services/Banshee.Collection.Database/TrackListDatabaseModel.cs:329-332 | The track read at a position reports that position back through IndexOf. |
| DapText.Trim | src/Dap/Banshee.Dap/Banshee.Dap/DapSource.cs:381-382 | The trimmed text is the slice that starts after the leading white space and is followed by white space only. It is empty exactly when the text is all white space, and otherwise starts and ends with a character that is not white space. |
| DapText.TrimIdempotent | src/Dap/Banshee.Dap/Banshee.Dap/DapSource.cs:381-382 | Trimming twice is trimming once. |
| DapText.Slug | src/Dap/Banshee.Dap/Banshee.Dap/DapSource.cs:386 | The spaces-to-dashes, lower-cased form keeps the length and maps each character on its own: a space becomes a dash, an ASCII capital its lower-case letter, and anything else stays. So it contains no space and no ASCII capital. |
| DapText.SlugAppend | src/Dap/Banshee.Dap/Banshee.Dap/DapSource.cs:386 | That form is taken character by character, so it distributes over concatenation. |
| DapText.GetExtension | src/Dap/Banshee.Dap/Banshee.Dap/DapSource.cs:340 | A non-empty extension is a dot and at least one more character, with no other dot and no `/`, and ends the path. It is empty only for an empty path, a path ending in a dot, or a path whose dots all lie before some `/`. |
| DapSource.FormatName | src/Dap/Banshee.Dap/Banshee.Dap/DapSource.cs:340-341 | The format in the error is never empty. It is `Unknown` when the path has no extension. Otherwise it is the extension without its dot, which ends the path. |
| DapSource.GetIconNames | src/Dap/Banshee.Dap/Banshee.Dap/DapSource.cs:376-396 | One or two names, the last always `multimedia-player`. There are two exactly when the trimmed vendor and product are both non-empty. The first is then `multimedia-player-<vendor>-<product>`, each part with spaces turned to dashes and lower-cased, with no space or ASCII capital. |
| DapSource.IconNameParts | src/Dap/Banshee.Dap/Banshee.Dap/DapSource.cs:386 | Lower-casing the whole formatted name leaves the prefix and the dash as they are and transforms the vendor and the product. |
| DapSource.TrackNeedsTranscoding | src/Dap/Banshee.Dap/Banshee.Dap/DapSource.cs:300-310 | A track needs transcoding exactly when no acceptable MIME type has the same extension as its own. So an empty list always needs it. |
| DapSource.AddTrackAndIncrementCount | src/Dap/Banshee.Dap/Banshee.Dap/DapSource.cs:328-352 | A track that needs no transcoding is copied from its own path and counted once, unless the copy throws, when it is not counted. One that does need it is rejected with its format when there is no preferred profile or it has video. It is rejected when there is no transcoder, and otherwise enqueued with the preferred profile, uncounted. |
| DapSource.OnTrackTranscoded | src/Dap/Banshee.Dap/Banshee.Dap/DapSource.cs:354-365 | The count goes up by exactly one whether or not the device copy failed. The status reads `<artist> - <title>`. |
| DapSource.OnTrackTranscodeCancelled | src/Dap/Banshee.Dap/Banshee.Dap/DapSource.cs:367-370 | A cancelled transcode still counts its track exactly once. |
| DapSource.EachTrackCountedOnce | src/Dap/Banshee.Dap/Banshee.Dap/DapSource.cs:328-370 | Once its add and any transcoder callback are over, a track has been counted exactly once, unless its add ended in an error, when it is not counted at all. |
| DapSource.AddAllCountsAccepted | src/Dap/Banshee.Dap/Banshee.Dap/DapSource.cs:328-370 | Over a batch, the count grows by exactly the number of tracks whose add did not fail, and never by more than the batch size. |
| DapSource.BytesVideo | src/Dap/Banshee.Dap/Banshee.Dap/DapSource.cs:429-431 | 0 without a video group, otherwise that group's usage. |
| DapSource.BytesMusic | src/Dap/Banshee.Dap/Banshee.Dap/DapSource.cs:433-435 | 0 without a music group, otherwise that group's usage. |
| DapSource.ToSync | src/Dap/Banshee.Dap/Banshee.Dap/DapSource.cs:220-221 | The tracks left to sync are exactly the source's tracks whose metadata hash the target lacks. There are never more of them than source tracks. |
| DapSource.ToSyncAppend | src/Dap/Banshee.Dap/Banshee.Dap/DapSource.cs:220-221 | The selection keeps source order: selecting from two lists is selecting from each and joining the results. |
| DapSource.ToSyncSingle | src/Dap/Banshee.Dap/Banshee.Dap/DapSource.cs:220-221 | A single track is kept exactly when its metadata hash is missing on the target. |
| DapSource.ToSyncEmptyTarget | src/Dap/Banshee.Dap/Banshee.Dap/DapSource.cs:220-221 | Against an empty target every source track is still to be copied, in order. |
| DapSource.ToSyncSizeBounded | src/Dap/Banshee.Dap/Banshee.Dap/DapSource.cs:235-245 | With non-negative sizes, the bytes still to copy are between 0 and the source's total. |
| DapSource.Summary | src/Dap/Banshee.Dap/Banshee.Dap/DapSource.cs:235-245 | The sync count is the number of source rows whose metadata hash the target lacks, duplicates included, so never more than the source's tracks. The byte total is the sum of the sizes of the tracks left to sync. Against an empty target, everything is counted. |
| DapSource.SummarySizeBounded | src/Dap/Banshee.Dap/Banshee.Dap/DapSource.cs:235-245 | With non-negative sizes, the reported bytes lie between 0 and the source's total. |
| DapSource.ToSyncCountsRows | src/Dap/Banshee.Dap/Banshee.Dap/DapSource.cs:220-221 | The tracks left to sync are exactly as many as the source rows whose hash the target lacks: one per row, as COUNT(*) counts. |
| DapSource.NothingToSyncIff | src/Dap/Banshee.Dap/Banshee.Dap/DapSource.cs:220-249 | The sync count is 0 exactly when every source track's hash is already on the target. |
| DapSource.SyncWithSelfIsEmpty | src/Dap/Banshee.Dap/Banshee.Dap/DapSource.cs:220-249 | A source synced with itself has nothing to copy and no bytes to report. |
| DapSource.TotalSizeNonNegative | src/Dap/Banshee.Dap/Banshee.Dap/DapSource.cs:243-249 | The byte total of tracks of non-negative size is non-negative. |
| DapSource.Megabytes | src/Dap/Banshee.Dap/Banshee.Dap/DapSource.cs:267-271 | The reported size is the byte count divided by 1024 * 1024, rounded toward zero: the largest whole number of megabytes not above a non-negative size. |
| DapSource.MegabytesOfWhole | src/Dap/Banshee.Dap/Banshee.Dap/DapSource.cs:269-270 | A whole number of megabytes is reported exactly. |

## Left out

- Row cache: its storage, paging and `CacheId` are out of scope. It stands as a generation number, and the count a reload reports is a parameter.
- Id filter building: `ModelHelper.BuildIdFilter` is not part of this model. The artist and album id filters are opaque strings handed to the two setters.
- Database I/O: running SQL (`CreateCommand`, `ExecuteScalar`, the data reader) is out of scope. The COUNT result is a parameter; so are the sync inputs, which are sequences of tracks.
- `SourceSync.Update` is modelled as a set difference by metadata hash. SQL NULL hashes under `NOT IN` are left out. The sum over no rows is taken as 0. The duration total is left out (TimeSpan arithmetic).
- Concurrency and UI: `lock` sections, the thread-pool load, status propagation, GTK widgets, dialogs and localisation are out of scope. Error and status text is kept only where a property speaks about it.
- Services: the profile manager, transcoder service, preferred profile lookup and device hardware are out of scope. They are parameters: the extension lookup, the preferred profile, whether a transcoder exists, and whether the device copy throws.
- Acceptable MIME types: the `taglib/mp3` default and a null list are left out. The list is a sequence.
- Other members: the exportable-model members and `GetItemFromReader`'s reading of columns are left out. Only the position it records is modelled.
- `AddAll`: the caller that feeds a batch of tracks is not part of this model. The batch lemma assumes it goes on after a track whose add failed.
- TrackListModel.Sort: the source's sort column is one shared, mutable object. The model identifies it by `id` and takes its current direction from the column handed to Sort, so a direction set on the object outside Sort reaches the model only through that argument.
- Whitespace: in the SQL literals of the filter and sort fragments, every run of spaces and line breaks, including one next to a formatted value (the source's `TrackNumber  ASC`), is modelled as one space, and the leading line break of each sort literal is dropped.
- TrackListQuery.FilterClause: doubles single quotes in the filter text, which the source does not. For quote-free text the two agree (FilterClauseMatchesSourceWithoutQuotes); see Findings.
- TrackListModel.FetchCount: saturates at the largest 32-bit value where the source wraps around; see Findings.
- DapText.ToLower: lower-cases the ASCII letters only. The culture-dependent mapping of other letters is not modelled.
- DapText.GetExtension: models Unix paths (`/` separator). The invalid-path-character check is left out.
- LIKE wildcards: `%` and `_` in the filter text are not escaped, neither by the source nor by the model. The readers take patterns literally.

## Findings

| source | as written | input that shows it | evidently intended | confidence | as-written member | corrected member |
|---|---|---|---|---|---|---|
| src/Core/Banshee.Services/Banshee.Collection.Database/TrackListDatabaseModel.cs:83-86 | The filter text is formatted between single quotes of three LIKE literals without doubling its quotes. | Filter text `Don't`: the first literal closes after `Don`, and the clause does not mean three substring tests of the text. | The text is searched for as given, with quotes doubled inside the literals. | medium, not executed | TrackListQuery.FilterClauseAsWritten, TrackListQuery.QuoteBreaksAsWrittenFilter | TrackListQuery.FilterClause |
| src/Core/Banshee.Services/Banshee.Collection.Database/TrackListDatabaseModel.cs:324-326 | `RowsInView * 5` in unchecked 32-bit arithmetic. | RowsInView = 429496730 gives a negative page size. | A positive page size of at least the view. | low, not executed | TrackListModel.FetchCountAsWritten, TrackListModel.FetchCountAsWrittenOverflows | TrackListModel.FetchCount |

=== FILE: dap_source.dfy ===
/**
 * The decision logic of a digital audio player source: the icon names a
 * device gets, whether a track must be converted before it goes onto the
 * device, what happens to a track handed to the device, how added tracks are
 * counted, and the figures reported about what is left to synchronise.
 *
 * Services the source looks up at run time (the media profile manager, the
 * transcoder, the device) are parameters here.
 */
module DapSource {
  import opened Wrappers
  import opened DapText

  // ---------------------------------------------------------------------
  // Icon names
  // ---------------------------------------------------------------------

  /** The icon every device falls back to. */
  const FallbackIcon: string := "multimedia-player"

  /** The device-specific icon name is built from this prefix. */
  const IconPrefix: string := "multimedia-player-"

  /** A value that is present and not only white space. */
  predicate HasText(value: Option<string>) {
    value.Some? && Trim(value.value) != []
  }

  /**
   * The icon names for a device with the given vendor and product: a name
   * derived from both, when both are given, and then the fallback.
   */
  function GetIconNames(vendor: Option<string>, product: Option<string>): (r: seq<string>)
    ensures |r| == 1 || |r| == 2
    ensures r[|r| - 1] == FallbackIcon
    ensures |r| == 2 <==> HasText(vendor) && HasText(product)
    ensures |r| == 2 ==> r[0] == IconPrefix + Slug(Trim(vendor.value)) + "-" + Slug(Trim(product.value))
    ensures |r| == 2 ==> Plain(r[0])
  {
    var v := if vendor.Some? then Some(Trim(vendor.value)) else None;
    var p := if product.Some? then Some(Trim(product.value)) else None;
    if v.Some? && v.value != [] && p.Some? && p.value != [] then
      IconNameParts(v.value, p.value);
      [Slug(IconPrefix + v.value + "-" + p.value), FallbackIcon]
    else
      [FallbackIcon]
  }

  /** Slugging the whole formatted name slugs the vendor and the product and keeps the rest. */
  lemma IconNameParts(vendor: string, product: string)
    ensures Slug(IconPrefix + vendor + "-" + product) == IconPrefix + Slug(vendor) + "-" + Slug(product)
  {
    PlainPieces();
    SlugAroundPlain(IconPrefix, vendor, "-", product);
  }

  lemma PlainPieces()
    ensures Plain(IconPrefix) && Plain("-")
  {
    forall i | 0 <= i < |IconPrefix| ensures IconPrefix[i] != ' ' && !IsUpperAscii(IconPrefix[i]) {
      assert 'a' <= IconPrefix[i] <= 'z' || IconPrefix[i] == '-';
    }
  }

  /** Slugging four pieces, of which the first and third are plain. */
  lemma SlugAroundPlain(a: string, b: string, c: string, d: string)
    requires Plain(a) && Plain(c)
    ensures Slug(a + b + c + d) == a + Slug(b) + c + Slug(d)
  {
    SlugAppend(a + b + c, d);
    SlugAppend(a + b, c);
    SlugAppend(a, b);
    SlugOfPlain(a);
    SlugOfPlain(c);
  }

  // ---------------------------------------------------------------------
  // Transcoding
  // ---------------------------------------------------------------------

  /**
   * A track needs converting when no MIME type the device accepts has the
   * same file extension as the track's; `extension` is the profile manager's
   * MIME-type-to-extension lookup.
   */
  predicate NeedsTranscoding(trackMime: string, acceptable: seq<string>, extension: string -> Option<string>) {
    forall i :: 0 <= i < |acceptable| ==> extension(acceptable[i]) != extension(trackMime)
  }

  /** The test of TrackNeedsTranscoding: a scan that stops at the first acceptable type with a matching extension. */
  method TrackNeedsTranscoding(trackMime: string, acceptable: seq<string>, extension: string -> Option<string>)
    returns (needs: bool)
    ensures needs <==> NeedsTranscoding(trackMime, acceptable, extension)
    ensures !needs <==> exists i :: 0 <= i < |acceptable| && extension(acceptable[i]) == extension(trackMime)
    ensures acceptable == [] ==> needs
  {
    var trackExtension := extension(trackMime);
    var i := 0;
    while i < |acceptable|
      invariant 0 <= i <= |acceptable|
      invariant forall j :: 0 <= j < i ==> extension(acceptable[j]) != trackExtension
    {
      if extension(acceptable[i]) == trackExtension {
        return false;
      }
      i := i + 1;
    }
    return true;
  }

  // ---------------------------------------------------------------------
  // Adding a track
  // ---------------------------------------------------------------------

  /** A track handed to the device: its MIME type, the local path of its URI, and whether it has a video stream. */
  datatype Track = Track(mimeType: string, localPath: string, hasVideoStream: bool, artistName: string, title: string)

  /** A conversion profile; only its identity matters here. */
  datatype ProfileConfiguration = ProfileConfiguration(id: nat)

  /** What becomes of a track handed to the device. */
  datatype AddOutcome =
    | AddedDirectly(fromPath: string)           // copied to the device from its own location
    | DeviceAddFailed(fromPath: string)         // the copy to the device threw; the error propagates
    | UnsupportedFormat(format: string)         // rejected: no way to convert this format
    | ConversionUnavailable                     // rejected: no transcoder service
    | Enqueued(config: ProfileConfiguration)    // handed to the transcoder; counted when it finishes
  {
    /** The add ended in an error, so the track is never counted. */
    predicate Failed() {
      DeviceAddFailed? || UnsupportedFormat? || ConversionUnavailable?
    }
  }

  /** The outcome of one add, with the added-track count after it. */
  datatype AddStep = AddStep(outcome: AddOutcome, added: nat)

  /**
   * The format named in the "not supported" error: the path's extension
   * without its dot, or "Unknown" when the path has none.
   */
  function FormatName(localPath: string): (r: string)
    ensures r != []
    ensures GetExtension(localPath) == [] ==> r == "Unknown"
    ensures GetExtension(localPath) != [] ==>
      '.' !in r && '/' !in r && |r| < |localPath| && localPath[|localPath| - |r| - 1..] == "." + r
  {
    var ext := GetExtension(localPath);
    if ext == [] then "Unknown" else ext[1..]
  }

  /**
   * AddTrackAndIncrementCount: a track the device can play is copied from its
   * own location and counted, unless the copy throws; one that needs
   * converting is rejected when there is no preferred profile or it is a
   * video, rejected when there is no transcoder, and otherwise enqueued,
   * uncounted. `deviceAddFails` says whether the device's copy would throw.
   */
  function AddTrackAndIncrementCount(
    track: Track, acceptable: seq<string>, extension: string -> Option<string>,
    preferred: Option<ProfileConfiguration>, hasTranscoder: bool, deviceAddFails: bool, added: nat): (r: AddStep)
    ensures r.outcome.AddedDirectly? || r.outcome.DeviceAddFailed?
            <==> !NeedsTranscoding(track.mimeType, acceptable, extension)
    ensures r.outcome.AddedDirectly? <==> !NeedsTranscoding(track.mimeType, acceptable, extension) && !deviceAddFails
    ensures r.outcome.AddedDirectly? || r.outcome.DeviceAddFailed? ==> r.outcome.fromPath == track.localPath
    ensures r.outcome.AddedDirectly? ==> r.added == added + 1
    ensures !r.outcome.AddedDirectly? ==> r.added == added
    ensures r.outcome.UnsupportedFormat? <==>
      NeedsTranscoding(track.mimeType, acceptable, extension) && (preferred.None? || track.hasVideoStream)
    ensures r.outcome.UnsupportedFormat? ==> r.outcome.format == FormatName(track.localPath)
    ensures r.outcome.ConversionUnavailable? <==>
      NeedsTranscoding(track.mimeType, acceptable, extension) && preferred.Some? && !track.hasVideoStream && !hasTranscoder
    ensures r.outcome.Enqueued? ==> preferred.Some? && r.outcome.config == preferred.value
  {
    if !NeedsTranscoding(track.mimeType, acceptable, extension) then
      if deviceAddFails then AddStep(DeviceAddFailed(track.localPath), added)
      else AddStep(AddedDirectly(track.localPath), added + 1)
    else if preferred.None? || track.hasVideoStream then
      AddStep(UnsupportedFormat(FormatName(track.localPath)), added)
    else if !hasTranscoder then
      AddStep(ConversionUnavailable, added)
    else
      AddStep(Enqueued(preferred.value), added)
  }

  /** The state a transcode callback leaves: the added-track count and the job status line. */
  datatype CallbackStep = CallbackStep(added: nat, status: Option<string>)

  /**
   * OnTrackTranscoded: the status line names the track, and the track is
   * counted whether or not copying the converted file to the device failed
   * (that error is logged and swallowed).
   */
  function OnTrackTranscoded(track: Track, deviceAddFailed: bool, added: nat): (r: CallbackStep)
    ensures r.added == added + 1
    ensures r.status.Some? && |r.status.value| == |track.artistName| + 3 + |track.title|
    ensures r.status.Some? && r.status.value[..|track.artistName|] == track.artistName
    ensures r.status.Some? && r.status.value[|track.artistName|..] == " - " + track.title
  {
    CallbackStep(added + 1, Some(track.artistName + " - " + track.title))
  }

  /** OnTrackTranscodeCancelled: a cancelled conversion still counts its track, and leaves the status alone. */
  function OnTrackTranscodeCancelled(added: nat): (r: CallbackStep)
    ensures r.added == added + 1 && r.status.None?
  {
    CallbackStep(added + 1, None)
  }

  /** How the transcoder finishes an enqueued track. */
  datatype Resolution = Transcoded(deviceAddFailed: bool) | Cancelled

  /** The added-track count once a track's add and, if it was enqueued, its callback are over. */
  function Settle(track: Track, step: AddStep, resolution: Resolution): nat {
    if step.outcome.Enqueued? then
      match resolution
      case Transcoded(failed) => OnTrackTranscoded(track, failed, step.added).added
      case Cancelled => OnTrackTranscodeCancelled(step.added).added
    else
      step.added
  }

  /**
   * Every track handed to the device is counted exactly once, however its
   * conversion ends, unless its add ended in an error; then it is not counted.
   */
  lemma EachTrackCountedOnce(
    track: Track, acceptable: seq<string>, extension: string -> Option<string>,
    preferred: Option<ProfileConfiguration>, hasTranscoder: bool, deviceAddFails: bool, added: nat,
    resolution: Resolution)
    ensures var step := AddTrackAndIncrementCount(track, acceptable, extension, preferred, hasTranscoder,
                                                  deviceAddFails, added);
            Settle(track, step, resolution) == if step.outcome.Failed() then added else added + 1
  {
  }

  /** One track of a batch, with how its device copy and its conversion, if any, turn out. */
  datatype Attempt = Attempt(track: Track, deviceAddFails: bool, resolution: Resolution)

  /** The number of attempts of a batch whose add does not end in an error. */
  function Accepted(attempts: seq<Attempt>, acceptable: seq<string>, extension: string -> Option<string>,
                    preferred: Option<ProfileConfiguration>, hasTranscoder: bool): (r: nat)
    ensures r <= |attempts|
  {
    if attempts == [] then 0
    else
      var a := attempts[0];
      (if AddTrackAndIncrementCount(a.track, acceptable, extension, preferred, hasTranscoder, a.deviceAddFails, 0)
          .outcome.Failed()
       then 0 else 1)
      + Accepted(attempts[1..], acceptable, extension, preferred, hasTranscoder)
  }

  /**
   * The count after adding a batch one track at a time, each settled by its
   * own resolution, going on after a track whose add ended in an error.
   */
  function AddAll(attempts: seq<Attempt>, acceptable: seq<string>, extension: string -> Option<string>,
                  preferred: Option<ProfileConfiguration>, hasTranscoder: bool, added: nat): nat
  {
    if attempts == [] then added
    else
      var a := attempts[0];
      var step := AddTrackAndIncrementCount(a.track, acceptable, extension, preferred, hasTranscoder,
                                            a.deviceAddFails, added);
      AddAll(attempts[1..], acceptable, extension, preferred, hasTranscoder, Settle(a.track, step, a.resolution))
  }

  /** After a batch, the count has grown by exactly the number of tracks whose add did not fail. */
  lemma {:induction false} AddAllCountsAccepted(
    attempts: seq<Attempt>, acceptable: seq<string>, extension: string -> Option<string>,
    preferred: Option<ProfileConfiguration>, hasTranscoder: bool, added: nat)
    ensures AddAll(attempts, acceptable, extension, preferred, hasTranscoder, added)
            == added + Accepted(attempts, acceptable, extension, preferred, hasTranscoder)
    ensures AddAll(attempts, acceptable, extension, preferred, hasTranscoder, added) <= added + |attempts|
    decreases |attempts|
  {
    if attempts != [] {
      var a := attempts[0];
      var step := AddTrackAndIncrementCount(a.track, acceptable, extension, preferred, hasTranscoder,
                                            a.deviceAddFails, added);
      var zero := AddTrackAndIncrementCount(a.track, acceptable, extension, preferred, hasTranscoder,
                                            a.deviceAddFails, 0);
      assert step.outcome == zero.outcome;
      EachTrackCountedOnce(a.track, acceptable, extension, preferred, hasTranscoder, a.deviceAddFails, added,
                           a.resolution);
      AddAllCountsAccepted(attempts[1..], acceptable, extension, preferred, hasTranscoder,
                           Settle(a.track, step, a.resolution));
    }
  }

  // ---------------------------------------------------------------------
  // Space used and what is left to synchronise
  // ---------------------------------------------------------------------

  /** A child source grouping the device's music or its videos. */
  datatype MediaGroupSource = MediaGroupSource(bytesUsed: int)

  /** The device's music and video group sources, either of which may be missing. */
  datatype Groups = Groups(music: Option<MediaGroupSource>, video: Option<MediaGroupSource>)

  /** BytesVideo: the video group's usage, or 0 without a video group. */
  function BytesVideo(g: Groups): (r: int)
    ensures g.video.None? ==> r == 0
    ensures g.video.Some? ==> r == g.video.value.bytesUsed
  {
    if g.video.None? then 0 else g.video.value.bytesUsed
  }

  /** BytesMusic: the music group's usage, or 0 without a music group. */
  function BytesMusic(g: Groups): (r: int)
    ensures g.music.None? ==> r == 0
    ensures g.music.Some? ==> r == g.music.value.bytesUsed
  {
    if g.music.None? then 0 else g.music.value.bytesUsed
  }

  /** A track of a primary source, as far as synchronising goes. */
  datatype SyncTrack = SyncTrack(metadataHash: string, fileSize: int)

  predicate HasHash(tracks: seq<SyncTrack>, hash: string) {
    exists i :: 0 <= i < |tracks| && tracks[i].metadataHash == hash
  }

  /** The tracks of `from` whose metadata hash no track of `to` has, in order. */
  function ToSync(from: seq<SyncTrack>, to: seq<SyncTrack>): (r: seq<SyncTrack>)
    ensures |r| <= |from|
    ensures forall t :: t in r ==> t in from && !HasHash(to, t.metadataHash)
    ensures forall i :: 0 <= i < |from| && !HasHash(to, from[i].metadataHash) ==> from[i] in r
  {
    if from == [] then []
    else
      var rest := ToSync(from[1..], to);
      assert forall i :: 1 <= i < |from| ==> from[i] == from[1..][i - 1];
      if HasHash(to, from[0].metadataHash) then rest else [from[0]] + rest
  }

  /** The selection keeps order: selecting from two lists is selecting from each in turn. */
  lemma {:induction false} ToSyncAppend(a: seq<SyncTrack>, b: seq<SyncTrack>, to: seq<SyncTrack>)
    ensures ToSync(a + b, to) == ToSync(a, to) + ToSync(b, to)
    decreases |a|
  {
    if a == [] {
      assert a + b == b;
    } else {
      assert (a + b)[0] == a[0];
      assert (a + b)[1..] == a[1..] + b;
      ToSyncAppend(a[1..], b, to);
    }
  }

  /** A single track is kept exactly when its hash is missing on the other side. */
  lemma ToSyncSingle(t: SyncTrack, to: seq<SyncTrack>)
    ensures ToSync([t], to) == if HasHash(to, t.metadataHash) then [] else [t]
  {
    assert [t][1..] == [];
  }

  /** Against an empty target every track is still to be copied. */
  lemma {:induction false} ToSyncEmptyTarget(from: seq<SyncTrack>)
    ensures ToSync(from, []) == from
    decreases |from|
  {
    if from != [] {
      ToSyncEmptyTarget(from[1..]);
      assert [from[0]] + from[1..] == from;
    }
  }

  function TotalSize(tracks: seq<SyncTrack>): int {
    if tracks == [] then 0 else tracks[0].fileSize + TotalSize(tracks[1..])
  }

  /** Leaving tracks out of a list of non-negative sizes cannot make its total grow. */
  lemma {:induction false} ToSyncSizeBounded(from: seq<SyncTrack>, to: seq<SyncTrack>)
    requires forall i :: 0 <= i < |from| ==> from[i].fileSize >= 0
    ensures 0 <= TotalSize(ToSync(from, to)) <= TotalSize(from)
    decreases |from|
  {
    if from != [] {
      ToSyncSizeBounded(from[1..], to);
      var rest := ToSync(from[1..], to);
      assert ([from[0]] + rest)[1..] == rest;
    }
  }

  /** SourceSync: how many tracks, and how many bytes, are still to be copied. */
  datatype SourceSync = SourceSync(count: nat, fileSize: int)

  /**
   * The summary of a synchronisation: the number of source rows whose hash
   * the target lacks, duplicates included, and the sum of their sizes. That
   * is at most every track of the source, and all of it when the target
   * holds nothing.
   */
  function Summary(from: seq<SyncTrack>, to: seq<SyncTrack>): (r: SourceSync)
    ensures r.count == |PendingRows(from, to, |from|)|
    ensures r.count <= |from|
    ensures r.fileSize == TotalSize(ToSync(from, to))
    ensures to == [] ==> r == SourceSync(|from|, TotalSize(from))
  {
    var pending := ToSync(from, to);
    ToSyncEmptyTarget(from);
    ToSyncCountsRows(from, to, |from|);
    assert from[..|from|] == from;
    SourceSync(|pending|, TotalSize(pending))
  }

  /** With non-negative sizes, the bytes the summary reports lie between 0 and the source's total. */
  lemma SummarySizeBounded(from: seq<SyncTrack>, to: seq<SyncTrack>)
    requires forall i :: 0 <= i < |from| ==> from[i].fileSize >= 0
    ensures 0 <= Summary(from, to).fileSize <= TotalSize(from)
  {
    ToSyncSizeBounded(from, to);
  }

  /** The positions among the first `n` source rows whose hash the target lacks: the rows COUNT(*) counts. */
  function PendingRows(from: seq<SyncTrack>, to: seq<SyncTrack>, n: nat): set<nat>
    requires n <= |from|
  {
    set i: nat | i < n && !HasHash(to, from[i].metadataHash)
  }

  /** The tracks left to sync are as many as the pending rows, one per row. */
  lemma {:induction false} ToSyncCountsRows(from: seq<SyncTrack>, to: seq<SyncTrack>, n: nat)
    requires n <= |from|
    ensures |ToSync(from[..n], to)| == |PendingRows(from, to, n)|
    decreases n
  {
    if n == 0 {
      assert PendingRows(from, to, 0) == {};
    } else {
      var m := n - 1;
      var front := from[..m];
      var last := from[m];
      ToSyncCountsRows(from, to, m);
      assert from[..n] == front + [last];
      ToSyncAppend(front, [last], to);
      ToSyncSingle(last, to);
      PendingRowsStep(from, to, m);
    }
  }

  /** One more row adds its position exactly when its hash is missing on the target. */
  lemma PendingRowsStep(from: seq<SyncTrack>, to: seq<SyncTrack>, m: nat)
    requires m < |from|
    ensures m !in PendingRows(from, to, m)
    ensures PendingRows(from, to, m + 1)
         == PendingRows(from, to, m) + (if HasHash(to, from[m].metadataHash) then {} else {m})
  {
  }

  /** Nothing is left to synchronise exactly when every track's hash is already on the other side. */
  lemma NothingToSyncIff(from: seq<SyncTrack>, to: seq<SyncTrack>)
    ensures Summary(from, to).count == 0 <==> forall i :: 0 <= i < |from| ==> HasHash(to, from[i].metadataHash)
    ensures Summary(from, to).count <= |from|
  {
    var pending := ToSync(from, to);
    if pending != [] {
      assert pending[0] in pending;
    }
  }

  /** A source synchronised with itself has nothing to copy. */
  lemma SyncWithSelfIsEmpty(tracks: seq<SyncTrack>)
    ensures Summary(tracks, tracks) == SourceSync(0, 0)
  {
  }

  /** The byte total of tracks of non-negative size is non-negative. */
  lemma {:induction false} TotalSizeNonNegative(tracks: seq<SyncTrack>)
    requires forall i :: 0 <= i < |tracks| ==> tracks[i].fileSize >= 0
    ensures TotalSize(tracks) >= 0
    decreases |tracks|
  {
    if tracks != [] {
      TotalSizeNonNegative(tracks[1..]);
    }
  }

  const BytesPerMegabyte: int := 1024 * 1024

  /**
   * The size shown in the sync summary: a byte count divided by 1024 * 1024
   * with the remainder dropped, rounding toward zero for negative counts.
   */
  function Megabytes(bytes: int): (r: int)
    ensures bytes >= 0 ==> 0 <= r && r * BytesPerMegabyte <= bytes < (r + 1) * BytesPerMegabyte
    ensures bytes < 0 ==> r <= 0 && (r - 1) * BytesPerMegabyte < bytes <= r * BytesPerMegabyte
  {
    if bytes >= 0 then bytes / BytesPerMegabyte else -((-bytes) / BytesPerMegabyte)
  }

  /** Whole megabytes are reported exactly. */
  lemma MegabytesOfWhole(n: int)
    ensures Megabytes(n * BytesPerMegabyte) == n
  {
  }
}

=== FILE: dap_text.dfy ===
/**
 * The string operations the device source relies on: trimming white space,
 * replacing a character, lower-casing, and taking a path's extension.
 */
module DapText {
  import opened Wrappers

  /** White space as Char.IsWhiteSpace defines it: the space separators, line and paragraph separators, and TAB to CR, NEL. */
  predicate IsWhiteSpace(c: char) {
    c == ' ' || ('\t' <= c <= '\r') || c == '\U{85}' || c == '\U{A0}' || c == '\U{1680}'
    || ('\U{2000}' <= c <= '\U{200A}') || c == '\U{2028}' || c == '\U{2029}'
    || c == '\U{202F}' || c == '\U{205F}' || c == '\U{3000}'
  }

  /** Drops the leading white space. */
  function TrimStart(s: string): (r: string)
    ensures |r| <= |s| && r == s[|s| - |r|..]
    ensures forall i :: 0 <= i < |s| - |r| ==> IsWhiteSpace(s[i])
    ensures r == [] || !IsWhiteSpace(r[0])
  {
    if |s| > 0 && IsWhiteSpace(s[0]) then TrimStart(s[1..]) else s
  }

  /** Drops the trailing white space. */
  function TrimEnd(s: string): (r: string)
    ensures |r| <= |s| && r == s[..|r|]
    ensures forall i :: |r| <= i < |s| ==> IsWhiteSpace(s[i])
    ensures r == [] || !IsWhiteSpace(r[|r| - 1])
  {
    if |s| > 0 && IsWhiteSpace(s[|s| - 1]) then TrimEnd(s[..|s| - 1]) else s
  }

  /** How many white-space characters `s` starts with. */
  function Lead(s: string): (k: nat)
    ensures k <= |s|
    ensures forall i :: 0 <= i < k ==> IsWhiteSpace(s[i])
    ensures k == |s| || !IsWhiteSpace(s[k])
  {
    |s| - |TrimStart(s)|
  }

  /**
   * String.Trim: drops white space at both ends. The result is the slice of
   * `s` that starts after its leading white space and is followed by white
   * space only; it is empty exactly when the string is all white space, and
   * otherwise starts and ends with a character that is not white space.
   */
  function Trim(s: string): (r: string)
    ensures |r| <= |s|
    ensures Lead(s) + |r| <= |s| && r == s[Lead(s)..Lead(s) + |r|]
    ensures forall i :: Lead(s) + |r| <= i < |s| ==> IsWhiteSpace(s[i])
    ensures r == [] <==> forall i :: 0 <= i < |s| ==> IsWhiteSpace(s[i])
    ensures r != [] ==> !IsWhiteSpace(r[0]) && !IsWhiteSpace(r[|r| - 1])
  {
    var t := TrimStart(s);
    var r := TrimEnd(t);
    assert r == [] ==> t == [];
    assert r != [] ==> r[0] == t[0];
    r
  }

  /** Trimming a trimmed string changes nothing. */
  lemma TrimIdempotent(s: string)
    ensures Trim(Trim(s)) == Trim(s)
  {
    var r := Trim(s);
    if r != [] {
      assert TrimStart(r) == r;
      assert TrimEnd(r) == r;
    }
  }

  /** String.Replace(char, char): every `from` becomes `to`. */
  function ReplaceChar(s: string, from: char, to: char): (r: string)
    ensures |r| == |s|
    ensures forall i :: 0 <= i < |s| ==> r[i] == if s[i] == from then to else s[i]
  {
    if |s| == 0 then [] else [if s[0] == from then to else s[0]] + ReplaceChar(s[1..], from, to)
  }

  predicate IsUpperAscii(c: char) {
    'A' <= c <= 'Z'
  }

  function LowerChar(c: char): (r: char)
    ensures !IsUpperAscii(r)
  {
    if IsUpperAscii(c) then (c as int + 32) as char else c
  }

  /** String.ToLower, for the ASCII letters. */
  function ToLower(s: string): (r: string)
    ensures |r| == |s|
    ensures forall i :: 0 <= i < |s| ==> r[i] == LowerChar(s[i])
  {
    if |s| == 0 then [] else [LowerChar(s[0])] + ToLower(s[1..])
  }

  /** What one character of a device name becomes in its slug. */
  function SlugChar(c: char): char {
    LowerChar(if c == ' ' then '-' else c)
  }

  /** Spaces to dashes, then lower case: how a device name becomes part of an icon name. */
  function Slug(s: string): (r: string)
    ensures |r| == |s|
    ensures forall i :: 0 <= i < |s| ==> r[i] == SlugChar(s[i])
    ensures Plain(r)
  {
    ToLower(ReplaceChar(s, ' ', '-'))
  }

  /** Slugging works character by character. */
  lemma SlugAppend(a: string, b: string)
    ensures Slug(a + b) == Slug(a) + Slug(b)
  {
    CharwiseAppend(a, b, Slug(a), Slug(b), Slug(a + b));
  }

  /** Three character-by-character slugs of `a`, `b` and `a + b` line up. */
  lemma CharwiseAppend(a: string, b: string, sa: string, sb: string, sab: string)
    requires |sa| == |a| && forall i :: 0 <= i < |a| ==> sa[i] == SlugChar(a[i])
    requires |sb| == |b| && forall i :: 0 <= i < |b| ==> sb[i] == SlugChar(b[i])
    requires |sab| == |a + b| && forall i :: 0 <= i < |a + b| ==> sab[i] == SlugChar((a + b)[i])
    ensures sab == sa + sb
  {
    forall i | 0 <= i < |sab| ensures sab[i] == (sa + sb)[i] {
      if i < |a| {
        assert (a + b)[i] == a[i];
      } else {
        assert (a + b)[i] == b[i - |a|];
      }
    }
  }

  /** Text without spaces or ASCII capitals. */
  predicate Plain(s: string) {
    forall i :: 0 <= i < |s| ==> s[i] != ' ' && !IsUpperAscii(s[i])
  }

  /** Plain text is its own slug. */
  lemma SlugOfPlain(s: string)
    requires Plain(s)
    ensures Slug(s) == s
  {
  }

  /**
   * Where the extension of `path` starts, scanning left from position `i`:
   * the last '.' before `i` with no '/' after it.
   */
  function ExtensionStart(path: string, i: nat): (r: Option<nat>)
    requires i <= |path|
    ensures r.Some? ==> r.value < i && path[r.value] == '.'
    ensures r.Some? ==> forall j :: r.value < j < i ==> path[j] != '.' && path[j] != '/'
    ensures r.None? ==> forall j :: 0 <= j < i && path[j] == '.' ==> '/' in path[j + 1..i]
    decreases i
  {
    if i == 0 then None
    else if path[i - 1] == '.' then Some(i - 1)
    else if path[i - 1] == '/' then None
    else ExtensionStart(path, i - 1)
  }

  /**
   * Path.GetExtension on a Unix path: from the last '.' of the last path
   * segment to the end, dot included; empty when the last segment has no dot
   * or ends in it.
   */
  function GetExtension(path: string): (r: string)
    ensures r != [] ==>
      |r| >= 2 && r[0] == '.' && '.' !in r[1..] && '/' !in r && |r| <= |path| && path[|path| - |r|..] == r
    ensures r == [] ==>
      path == [] || path[|path| - 1] == '.' || forall j :: 0 <= j < |path| && path[j] == '.' ==> '/' in path[j + 1..]
  {
    match ExtensionStart(path, |path|)
    case None => []
    case Some(k) => if k < |path| - 1 then path[k..] else []
  }
}

=== FILE: sql_text.dfy ===
/**
 * Pieces of SQL text handling shared by the query builder: prefix tests,
 * splitting off a bare word, and the quoting rule of SQL string literals
 * (a quote inside a literal is written twice).
 */
module SqlText {
  import opened Wrappers

  const Quote: char := '\''

  predicate StartsWith(s: string, prefix: string) {
    |prefix| <= |s| && s[..|prefix|] == prefix
  }

  /** Splits `s` at its first space: the word before it, and the rest from the space on. */
  function ReadWord(s: string): (r: (string, string))
    ensures s == r.0 + r.1
    ensures ' ' !in r.0
    ensures r.1 == [] || r.1[0] == ' '
  {
    if |s| == 0 || s[0] == ' ' then ([], s)
    else
      var (w, rest) := ReadWord(s[1..]);
      assert s == [s[0]] + s[1..];
      ([s[0]] + w, rest)
  }

  /** A word followed by text that starts with a space is read back exactly. */
  lemma {:induction false} ReadWordAppend(w: string, rest: string)
    requires ' ' !in w
    requires rest == [] || rest[0] == ' '
    ensures ReadWord(w + rest) == (w, rest)
  {
    if |w| == 0 {
      assert w + rest == rest;
    } else {
      assert (w + rest)[1..] == w[1..] + rest;
      ReadWordAppend(w[1..], rest);
      assert [w[0]] + w[1..] == w;
    }
  }

  /** Doubles every single quote, so that the result can sit between two quotes as a literal. */
  function Escape(s: string): (r: string)
    ensures |s| <= |r|
    ensures Quote !in s ==> r == s
  {
    if |s| == 0 then []
    else
      assert s == [s[0]] + s[1..];
      (if s[0] == Quote then [Quote, Quote] else [s[0]]) + Escape(s[1..])
  }

  /**
   * Reads the body of a string literal whose opening quote has already been
   * consumed, up to its closing quote. Yields the body with doubled quotes
   * undone, and the text after the closing quote; `None` when the literal is
   * never closed.
   */
  function ReadLiteral(s: string): (r: Option<(string, string)>)
    ensures r.Some? ==> s == Escape(r.value.0) + [Quote] + r.value.1
    ensures r.Some? ==> |r.value.1| < |s|
    decreases |s|
  {
    if |s| == 0 then None
    else if s[0] != Quote then
      match ReadLiteral(s[1..])
      case None => None
      case Some((body, rest)) =>
        EscapeCons([s[0]], s[0], body, rest, s[1..]);
        assert s == [s[0]] + s[1..];
        Some(([s[0]] + body, rest))
    else if |s| >= 2 && s[1] == Quote then
      match ReadLiteral(s[2..])
      case None => None
      case Some((body, rest)) =>
        EscapeCons([Quote, Quote], Quote, body, rest, s[2..]);
        assert s == [Quote, Quote] + s[2..];
        Some(([Quote] + body, rest))
    else
      assert s == [Quote] + s[1..];
      Some(([], s[1..]))
  }

  /** One more character in front of a literal's body: its escaped form goes in front of the literal's text. */
  lemma EscapeCons(prefix: string, c: char, body: string, rest: string, text: string)
    requires prefix == if c == Quote then [Quote, Quote] else [c]
    requires text == Escape(body) + [Quote] + rest
    ensures prefix + text == Escape([c] + body) + [Quote] + rest
  {
    var cb := [c] + body;
    assert cb[0] == c && cb[1..] == body;
    assert Escape(cb) == prefix + Escape(body);
  }

  /** Reading past an ordinary character of the literal's body. */
  lemma ReadLiteralPlain(c: char, tail: string)
    requires c != Quote
    ensures ReadLiteral([c] + tail) ==
      match ReadLiteral(tail)
      case None => None
      case Some((b, r)) => Some(([c] + b, r))
  {
    assert ([c] + tail)[1..] == tail;
  }

  /** Reading past a doubled quote inside the literal's body. */
  lemma ReadLiteralDoubled(tail: string)
    ensures ReadLiteral([Quote, Quote] + tail) ==
      match ReadLiteral(tail)
      case None => None
      case Some((b, r)) => Some(([Quote] + b, r))
  {
    assert ([Quote, Quote] + tail)[2..] == tail;
  }

  /**
   * Quoting round trip: an escaped body followed by the closing quote reads
   * back as that body, provided the closing quote is not itself followed by a
   * quote (which would make the two read as one escaped quote).
   */
  lemma {:induction false} ReadLiteralEscape(body: string, rest: string)
    requires rest == [] || rest[0] != Quote
    ensures ReadLiteral(Escape(body) + [Quote] + rest) == Some((body, rest))
  {
    var s := Escape(body) + [Quote] + rest;
    if |body| == 0 {
      assert s == [Quote] + rest;
      assert s[1..] == rest;
    } else {
      var tail := Escape(body[1..]) + [Quote] + rest;
      ReadLiteralEscape(body[1..], rest);
      var head := if body[0] == Quote then [Quote, Quote] else [body[0]];
      assert Escape(body) == head + Escape(body[1..]);
      assert s == head + tail;
      if body[0] == Quote {
        ReadLiteralDoubled(tail);
      } else {
        ReadLiteralPlain(body[0], tail);
      }
      assert [body[0]] + body[1..] == body;
    }
  }
}

=== FILE: track_list_model.dfy ===
/**
 * The view state of the track list model and its transitions: storing the
 * filter text, refiltering, sorting, setting the join, condition and id
 * filters, clearing and reloading. The cache adapter is reduced to a
 * generation number `cacheId` that every cache clear moves on; what it and the
 * COUNT query return on a reload are parameters.
 */
module TrackListModel {
  import opened Wrappers
  import opened SqlText
  import opened TrackListQuery

  const Int32Max := 0x7fff_ffff
  type Int32 = x: int | -0x8000_0000 <= x <= Int32Max

  /** Everything the model keeps between calls; `None` is a null reference. */
  datatype ViewState = ViewState(
    filter: Option<string>,          // the text last stored by the Filter setter
    filterQuery: Option<string>,     // the filter clause built by the last Refilter
    sortColumn: Option<SortColumn>,
    sortQuery: Option<string>,
    joinFragment: Option<string>,
    condition: Option<string>,
    artistIdFilter: Option<string>,  // built elsewhere; opaque here
    albumIdFilter: Option<string>,   // built elsewhere; opaque here
    reloadFragment: Option<string>,  // the fragment handed to the cache on the last Reload
    count: nat,
    unfilteredCount: nat,
    rowsInView: Int32,
    cacheId: nat)                    // cache generation

  /** The sort fragment is the one built from the sort column. */
  predicate SortCoherent(s: ViewState) {
    s.sortQuery == GenerateSortQueryPart(s.sortColumn)
  }

  /** The reload fragment the current state would produce. */
  function CurrentFragment(s: ViewState): string {
    ReloadFragment(s.joinFragment, s.condition, s.artistIdFilter, s.albumIdFilter, s.filterQuery, s.sortQuery)
  }

  /** The same without the ORDER BY piece: which rows, not in what order. */
  function RowSelection(s: ViewState): string {
    ReloadFragment(s.joinFragment, s.condition, s.artistIdFilter, s.albumIdFilter, s.filterQuery, None)
  }

  /** The COUNT query that gives the unfiltered count. */
  function CurrentCountQuery(s: ViewState): string {
    CountQuery(s.joinFragment, s.condition)
  }

  /** Regenerates the filter clause from the stored text and clears the cache. */
  function Refilter(s: ViewState): (r: ViewState)
    ensures r.filterQuery.None? <==> IsNullOrEmpty(s.filter)
    ensures r.filterQuery.Some? ==> DecodeFilter(r.filterQuery.value) == Some(FilterTests(s.filter.value))
    ensures r.cacheId > s.cacheId
    ensures r == s.(filterQuery := r.filterQuery, cacheId := r.cacheId)
  {
    s.(filterQuery := FilterClause(s.filter), cacheId := s.cacheId + 1)
  }

  /** The Filter setter only stores the text: queries and cache stay as they are until a Refilter. */
  function SetFilter(s: ViewState, text: Option<string>): (r: ViewState)
    ensures r == s.(filter := text)
    ensures r.filterQuery == s.filterQuery && r.cacheId == s.cacheId
    ensures CurrentFragment(r) == CurrentFragment(s)
    ensures CurrentCountQuery(r) == CurrentCountQuery(s)
  {
    s.(filter := text)
  }

  /** The JoinFragment setter stores the join and refilters, which clears the cache. */
  function SetJoinFragment(s: ViewState, join: Option<string>): (r: ViewState)
    ensures r.joinFragment == join && r.cacheId > s.cacheId
    ensures r.filterQuery == FilterClause(s.filter)
    ensures r == s.(joinFragment := join, filterQuery := r.filterQuery, cacheId := r.cacheId)
  {
    Refilter(s.(joinFragment := join))
  }

  /** The Condition setter stores the condition and refilters, which clears the cache. */
  function SetCondition(s: ViewState, condition: Option<string>): (r: ViewState)
    ensures r.condition == condition && r.cacheId > s.cacheId
    ensures r.filterQuery == FilterClause(s.filter)
    ensures ConditionFragment(condition) == "" ==> CurrentCountQuery(r) == CurrentCountQuery(s.(condition := None))
    ensures r == s.(condition := condition, filterQuery := r.filterQuery, cacheId := r.cacheId)
  {
    Refilter(s.(condition := condition))
  }

  /** Whether `column` is the very column the model already sorts by. */
  predicate Reselects(s: ViewState, column: Option<SortColumn>) {
    s.sortColumn.Some? && column.Some? && s.sortColumn.value.id == column.value.id
  }

  /**
   * Sorts by `column`. The source's column is one shared object, identified
   * here by `id`, whose current state is the `column` handed in: re-selecting
   * the current column flips that direction; any other column is taken as
   * it is. The sort fragment is rebuilt and the cache cleared; nothing else
   * changes.
   */
  function Sort(s: ViewState, column: Option<SortColumn>): (r: ViewState)
    ensures r.sortColumn.Some? <==> column.Some?
    ensures r.sortColumn.Some? ==> r.sortColumn.value.id == column.value.id
    ensures Reselects(s, column) ==>
              r.sortColumn.value.sortType != column.value.sortType
              && r.sortColumn.value.sortKey == column.value.sortKey
    ensures !Reselects(s, column) ==> r.sortColumn == column
    ensures SortCoherent(r)
    ensures r.cacheId > s.cacheId
    ensures r == s.(sortColumn := r.sortColumn, sortQuery := r.sortQuery, cacheId := r.cacheId)
  {
    var current :=
      if Reselects(s, column)
      then Some(column.value.(sortType := Toggle(column.value.sortType)))
      else column;
    s.(sortColumn := current, sortQuery := GenerateSortQueryPart(current), cacheId := s.cacheId + 1)
  }

  /**
   * Sorting twice by the current column object, handed back in the state the
   * first sort left it, gives back its direction and sort fragment.
   */
  lemma SortTwiceRestores(s: ViewState)
    requires s.sortColumn.Some? && SortCoherent(s)
    ensures var once := Sort(s, s.sortColumn);
            Sort(once, once.sortColumn).sortColumn == s.sortColumn
    ensures var once := Sort(s, s.sortColumn);
            Sort(once, once.sortColumn).sortQuery == s.sortQuery
  {
    var once := Sort(s, s.sortColumn);
    assert Reselects(once, once.sortColumn);
    assert Toggle(Toggle(s.sortColumn.value.sortType)) == s.sortColumn.value.sortType;
  }

  /** After sorting by a column, sorting by that column object again always flips its direction. */
  lemma SortAgainFlips(s: ViewState, column: SortColumn)
    ensures var once := Sort(s, Some(column));
            Sort(once, once.sortColumn).sortColumn.value.sortType == Toggle(once.sortColumn.value.sortType)
  {
  }

  /** Any state's fragment is its row selection followed by the ORDER BY piece, if it sorts. */
  lemma FragmentIsSelectionThenOrder(s: ViewState)
    ensures CurrentFragment(s)
         == RowSelection(s) + (if s.sortQuery.Some? then " ORDER BY " + s.sortQuery.value else "")
  {
    if s.sortQuery.Some? {
      OrderByIsLast(s.joinFragment, s.condition, s.artistIdFilter, s.albumIdFilter, s.filterQuery, s.sortQuery.value);
    } else {
      assert RowSelection(s) + "" == RowSelection(s);
    }
  }

  /**
   * Sorting never filters: the rows selected and the COUNT query stay the
   * same, and the fragment is the selection followed by the new ORDER BY piece.
   */
  lemma SortOnlyOrders(s: ViewState, column: Option<SortColumn>)
    ensures RowSelection(Sort(s, column)) == RowSelection(s)
    ensures CurrentCountQuery(Sort(s, column)) == CurrentCountQuery(s)
    ensures var r := Sort(s, column);
            CurrentFragment(r) == RowSelection(s) + (if r.sortQuery.Some? then " ORDER BY " + r.sortQuery.value else "")
  {
    FragmentIsSelectionThenOrder(Sort(s, column));
  }


  /** Resets both counts and clears the cache; the view itself is kept. */
  function Clear(s: ViewState): (r: ViewState)
    ensures r.count == 0 && r.unfilteredCount == 0
    ensures r.cacheId > s.cacheId
    ensures CurrentFragment(r) == CurrentFragment(s) && CurrentCountQuery(r) == CurrentCountQuery(s)
    ensures r == s.(count := 0, unfilteredCount := 0, cacheId := r.cacheId)
  {
    s.(count := 0, unfilteredCount := 0, cacheId := s.cacheId + 1)
  }

  /**
   * Assembles the reload fragment for the cache, and takes the count the
   * cache reports for it and the result of the COUNT query.
   */
  function Reload(s: ViewState, cachedCount: nat, countResult: nat): (r: ViewState)
    ensures r.reloadFragment == Some(CurrentFragment(s))
    ensures StartsWith(r.reloadFragment.value, UnfilteredBase(s.joinFragment, s.condition))
    ensures r.count == cachedCount && r.unfilteredCount == countResult
    ensures CurrentFragment(r) == CurrentFragment(s) && r.cacheId == s.cacheId
    ensures r == s.(reloadFragment := r.reloadFragment, count := cachedCount, unfilteredCount := countResult)
  {
    s.(reloadFragment := Some(CurrentFragment(s)), count := cachedCount, unfilteredCount := countResult)
  }

  /**
   * The artist filter callback: stores the new id filter, refilters (which
   * also applies any filter text stored since the last refilter) and reloads.
   */
  function SetArtistIdFilter(s: ViewState, ids: Option<string>, cachedCount: nat, countResult: nat): (r: ViewState)
    ensures r.artistIdFilter == ids && r.albumIdFilter == s.albumIdFilter
    ensures r.filterQuery == FilterClause(s.filter)
    ensures r.cacheId > s.cacheId
    ensures r.reloadFragment == Some(CurrentFragment(r))
    ensures CurrentCountQuery(r) == CurrentCountQuery(s)
    ensures r.count == cachedCount && r.unfilteredCount == countResult
    ensures r == s.(artistIdFilter := ids, filterQuery := r.filterQuery, cacheId := r.cacheId,
                    reloadFragment := r.reloadFragment, count := cachedCount, unfilteredCount := countResult)
  {
    Reload(Refilter(s.(artistIdFilter := ids)), cachedCount, countResult)
  }

  /** The album filter callback, the same for the album id filter. */
  function SetAlbumIdFilter(s: ViewState, ids: Option<string>, cachedCount: nat, countResult: nat): (r: ViewState)
    ensures r.albumIdFilter == ids && r.artistIdFilter == s.artistIdFilter
    ensures r.filterQuery == FilterClause(s.filter)
    ensures r.cacheId > s.cacheId
    ensures r.reloadFragment == Some(CurrentFragment(r))
    ensures CurrentCountQuery(r) == CurrentCountQuery(s)
    ensures r.count == cachedCount && r.unfilteredCount == countResult
    ensures r == s.(albumIdFilter := ids, filterQuery := r.filterQuery, cacheId := r.cacheId,
                    reloadFragment := r.reloadFragment, count := cachedCount, unfilteredCount := countResult)
  {
    Reload(Refilter(s.(albumIdFilter := ids)), cachedCount, countResult)
  }

  /**
   * A freshly constructed model: nothing set, counts zero, and the cache
   * cleared once by the constructor's Refilter. Its fragment is the bare
   * unfiltered base.
   */
  function Initial(): (r: ViewState)
    ensures r.filter.None? && r.filterQuery.None? && r.sortColumn.None? && SortCoherent(r)
    ensures r.count == 0 && r.unfilteredCount == 0 && r.cacheId == 1
    ensures r.sortQuery.None? && r.reloadFragment.None? && r.rowsInView == 0 && FetchCount(r.rowsInView) == 100
    ensures r.joinFragment.None? && r.condition.None? && r.artistIdFilter.None? && r.albumIdFilter.None?
    ensures CurrentFragment(r) == UnfilteredBase(None, None)
  {
    var r := Refilter(ViewState(None, None, None, None, None, None, None, None, None, 0, 0, 0, 0));
    BareFragmentIsBase(None, None);
    r
  }

  /**
   * With empty filter text and no id filters, a refilter makes the rows the
   * reload selects the rows the COUNT query counts: the two queries share
   * their FROM and WHERE parts.
   */
  lemma EmptyFilterSelectsCountedRows(s: ViewState)
    requires s.artistIdFilter.None? && s.albumIdFilter.None?
    ensures var r := Refilter(SetFilter(s, Some("")));
            CurrentCountQuery(r) == "SELECT COUNT(*) " + RowSelection(r)
  {
    var r := Refilter(SetFilter(s, Some("")));
    BareFragmentIsBase(r.joinFragment, r.condition);
  }

  // ---------------------------------------------------------------------------
  // Page size
  // ---------------------------------------------------------------------------

  /** Two's complement wrap-around of a 32-bit signed result. */
  function Wrap32(x: int): (r: Int32)
    ensures (x - r) % 0x1_0000_0000 == 0
    ensures -0x8000_0000 <= x <= Int32Max ==> r == x
  {
    (x + 0x8000_0000) % 0x1_0000_0000 - 0x8000_0000
  }

  /**
   * FetchCount as the source computes it, in unchecked 32-bit arithmetic:
   * 100 for a view without rows, five times the rows while that fits, and
   * otherwise five times the rows wrapped modulo 2^32.
   */
  function FetchCountAsWritten(rowsInView: Int32): (r: Int32)
    ensures rowsInView <= 0 ==> r == 100
    ensures 0 < rowsInView <= Int32Max / 5 ==> r == 5 * rowsInView
    ensures rowsInView > 0 ==> (5 * rowsInView - r) % 0x1_0000_0000 == 0
  {
    if rowsInView > 0 then Wrap32(rowsInView * 5) else 100
  }

  /** A view of 429,496,730 rows makes the as-written page size negative. */
  lemma FetchCountAsWrittenOverflows()
    ensures FetchCountAsWritten(429_496_730) < 0
  {
    assert 429_496_730 * 5 == 0x8000_0002;
  }

  /**
   * The page size: five screens' worth of rows, or 100 when the view reports
   * none; saturated at the largest 32-bit value, so it is always positive and
   * never smaller than the view. Below the overflow it equals the source's value.
   */
  function FetchCount(rowsInView: Int32): (r: Int32)
    ensures r > 0
    ensures rowsInView <= 0 ==> r == 100
    ensures rowsInView > 0 ==> r >= rowsInView
    ensures rowsInView <= Int32Max / 5 ==> r == FetchCountAsWritten(rowsInView)
  {
    if rowsInView <= 0 then 100
    else if rowsInView <= Int32Max / 5 then rowsInView * 5
    else Int32Max
  }

  /** The RowsInView setter only stores the view size; the queries, counts and cache stay. */
  function SetRowsInView(s: ViewState, rows: Int32): (r: ViewState)
    ensures r == s.(rowsInView := rows)
    ensures CurrentFragment(r) == CurrentFragment(s) && CurrentCountQuery(r) == CurrentCountQuery(s)
  {
    s.(rowsInView := rows)
  }

  // ---------------------------------------------------------------------------
  // Tracks and positions
  // ---------------------------------------------------------------------------

  /** A track as the model hands it out; a library track remembers the position it was read at. */
  datatype TrackInfo = LibraryTrackInfo(dbIndex: nat) | OtherTrackInfo

  /** The position of a track: known for library tracks, -1 for any other kind. */
  function IndexOf(t: TrackInfo): (r: int)
    ensures r >= 0 <==> t.LibraryTrackInfo?
    ensures t.LibraryTrackInfo? ==> r == t.dbIndex
    ensures !t.LibraryTrackInfo? ==> r == -1
  {
    match t
    case LibraryTrackInfo(i) => i
    case OtherTrackInfo => -1
  }

  /** The track the model builds for the row read at `index`; its position is `index` again. */
  function GetItemFromReader(index: nat): (t: TrackInfo)
    ensures IndexOf(t) == index
  {
    LibraryTrackInfo(index)
  }
}

=== FILE: track_list_query.dfy ===
/**
 * The query fragments of the track list model, as pure functions: the free
 * text filter clause, the three-column ORDER BY fragment, the condition
 * fragment, the reload fragment assembled in a fixed order, and the
 * unfiltered COUNT query.
 *
 * The source writes its SQL as verbatim multi-line literals; here every run
 * of spaces and line breaks, including one next to a formatted value, is
 * written as a single space, and the leading line break of each sort
 * literal is dropped.
 */
module TrackListQuery {
  import opened Wrappers
  import opened SqlText

  // Columns of the joined track, artist and album tables.
  const TrackTitle := "CoreTracks.Title"
  const TrackNumber := "CoreTracks.TrackNumber"
  const ArtistName := "CoreArtists.Name"
  const AlbumTitle := "CoreAlbums.Title"

  /**
   * The four keys the sort switches on, each with the column its cases order
   * by; a key outside these leaves the list unsorted.
   */
  const SortKeys: map<string, string> :=
    map["track" := TrackNumber, "artist" := ArtistName, "album" := AlbumTitle, "title" := TrackTitle]

  /** String.Format renders a null argument as the empty string. */
  function OrEmpty(o: Option<string>): string {
    if o.Some? then o.value else ""
  }

  // ---------------------------------------------------------------------------
  // Regrouping concatenations. Each lemma names one regrouping a proof below
  // needs, stated over variables so that the SQL literals passed in are not
  // unfolded character by character.
  // ---------------------------------------------------------------------------

  lemma Assoc3(a: string, b: string, c: string, d: string)
    ensures a + b + c + d == a + (b + (c + d))
  {
  }

  lemma Assoc4(a: string, b: string, c: string, d: string, e: string)
    ensures a + b + c + d + e == a + (b + (c + d + e))
  {
  }

  lemma Regroup(open: string, a: string, or: string, b: string, c: string, close: string)
    ensures open + a + or + b + or + c + close == open + (a + or + (b + or + c)) + close
  {
  }

  lemma RegroupFirst(open: string, a: string, or: string, b: string, c: string, close: string)
    ensures open + a + or + b + or + c + close == open + (a + (or + b + or + c + close))
  {
  }

  lemma RegroupAround(open: string, l0: string, others: string, a: string, b: string, c: string, d: string, e: string)
    requires l0 == a + b + c + d + e
    ensures open + (l0 + others) == open + ((a + b + c + d) + (e + others))
  {
  }

  lemma SplitAfterText(o: string, c: string, l: string, t: string, q: string, rest: string)
    ensures o + (c + l + t + q) + rest == (o + c + l + t) + (q + rest)
  {
  }

  lemma PrefixOfConcat(a: string, b: string)
    ensures StartsWith(a + b, a)
  {
    assert (a + b)[..|a|] == a;
  }

  predicate IsNullOrEmpty(o: Option<string>) {
    o.None? || o.value == ""
  }

  // ---------------------------------------------------------------------------
  // Free text filter
  // ---------------------------------------------------------------------------

  /** One `<column> LIKE '<pattern>'` test. */
  datatype LikeTest = LikeTest(column: string, pattern: string)

  function RenderLike(t: LikeTest): string {
    t.column + " LIKE '" + Escape(t.pattern) + "'"
  }

  /** The tests joined by ` OR `. */
  function RenderDisjunction(ts: seq<LikeTest>): string
    requires |ts| > 0
  {
    if |ts| == 1 then RenderLike(ts[0])
    else RenderLike(ts[0]) + " OR " + RenderDisjunction(ts[1..])
  }

  /** The clause appended to the WHERE part: ` AND (<tests>)`. */
  function RenderFilter(ts: seq<LikeTest>): string
    requires |ts| > 0
  {
    " AND (" + RenderDisjunction(ts) + ")"
  }

  /** The three tests the filter text is matched with: a substring match on each text column. */
  function FilterTests(text: string): seq<LikeTest> {
    var pattern := "%" + text + "%";
    [LikeTest(TrackTitle, pattern), LikeTest(ArtistName, pattern), LikeTest(AlbumTitle, pattern)]
  }

  /** Reads one LIKE test back, with the text after its closing quote. */
  function DecodeLike(s: string): (r: Option<(LikeTest, string)>)
    ensures r.Some? ==> |r.value.1| < |s|
  {
    var (column, afterColumn) := ReadWord(s);
    if !StartsWith(afterColumn, " LIKE '") then None
    else
      match ReadLiteral(afterColumn[7..])
      case None => None
      case Some((pattern, rest)) => Some((LikeTest(column, pattern), rest))
  }

  /** Reads a non-empty ` OR `-separated run of LIKE tests. */
  function DecodeDisjunction(s: string): (r: Option<(seq<LikeTest>, string)>)
    ensures r.Some? ==> |r.value.0| > 0
    decreases |s|
  {
    match DecodeLike(s)
    case None => None
    case Some((t, rest)) =>
      if StartsWith(rest, " OR ") then
        match DecodeDisjunction(rest[4..])
        case None => None
        case Some((ts, rest')) => Some(([t] + ts, rest'))
      else Some(([t], rest))
  }

  /** Reads a whole filter clause back into its tests. */
  function DecodeFilter(s: string): Option<seq<LikeTest>> {
    if !StartsWith(s, " AND (") then None
    else
      match DecodeDisjunction(s[6..])
      case Some((ts, rest)) => if rest == ")" then Some(ts) else None
      case None => None
  }

  predicate ColumnsAreWords(ts: seq<LikeTest>) {
    forall i :: 0 <= i < |ts| ==> ' ' !in ts[i].column
  }

  lemma DecodeLikeRender(t: LikeTest, tail: string)
    requires ' ' !in t.column
    requires tail == [] || tail[0] != Quote
    ensures DecodeLike(RenderLike(t) + tail) == Some((t, tail))
  {
    var literal := Escape(t.pattern) + [Quote] + tail;
    var afterColumn := " LIKE '" + literal;
    assert "'" == [Quote];
    Assoc4(t.column, " LIKE '", Escape(t.pattern), [Quote], tail);
    assert RenderLike(t) + tail == t.column + afterColumn;
    ReadWordAppend(t.column, afterColumn);
    assert StartsWith(afterColumn, " LIKE '");
    assert afterColumn[7..] == literal;
    ReadLiteralEscape(t.pattern, tail);
  }

  /**
   * Rendering a run of tests and reading it back gives the same tests, as long
   * as no column name contains a space and what follows does not continue the
   * run.
   */
  lemma {:induction false} DecodeDisjunctionRender(ts: seq<LikeTest>, tail: string)
    requires |ts| > 0 && ColumnsAreWords(ts)
    requires tail == [] || tail[0] != Quote
    requires !StartsWith(tail, " OR ")
    ensures DecodeDisjunction(RenderDisjunction(ts) + tail) == Some((ts, tail))
  {
    if |ts| == 1 {
      assert RenderDisjunction(ts) == RenderLike(ts[0]);
      DecodeDisjunctionSingle(ts[0], tail);
      assert [ts[0]] == ts;
    } else {
      var inner := RenderDisjunction(ts[1..]) + tail;
      assert RenderDisjunction(ts) == RenderLike(ts[0]) + " OR " + RenderDisjunction(ts[1..]);
      Assoc3(RenderLike(ts[0]), " OR ", RenderDisjunction(ts[1..]), tail);
      DecodeDisjunctionRender(ts[1..], tail);
      DecodeDisjunctionStep(ts[0], inner, ts[1..], tail);
      assert [ts[0]] + ts[1..] == ts;
    }
  }

  /** A single test, not followed by ` OR `, reads back as a run of one. */
  lemma DecodeDisjunctionSingle(t: LikeTest, tail: string)
    requires ' ' !in t.column
    requires tail == [] || tail[0] != Quote
    requires !StartsWith(tail, " OR ")
    ensures DecodeDisjunction(RenderLike(t) + tail) == Some(([t], tail))
  {
    DecodeLikeRender(t, tail);
  }

  /** A test followed by ` OR ` and a run reads back as the test in front of the run. */
  lemma DecodeDisjunctionStep(t: LikeTest, inner: string, ts: seq<LikeTest>, tail: string)
    requires ' ' !in t.column
    requires DecodeDisjunction(inner) == Some((ts, tail))
    ensures DecodeDisjunction(RenderLike(t) + (" OR " + inner)) == Some(([t] + ts, tail))
  {
    var rest := " OR " + inner;
    DecodeLikeRender(t, rest);
    assert StartsWith(rest, " OR ") && rest[4..] == inner;
  }

  lemma DecodeFilterRender(ts: seq<LikeTest>)
    requires |ts| > 0 && ColumnsAreWords(ts)
    ensures DecodeFilter(RenderFilter(ts)) == Some(ts)
  {
    var s := RenderFilter(ts);
    assert s[..6] == " AND (";
    assert s[6..] == RenderDisjunction(ts) + ")";
    DecodeDisjunctionRender(ts, ")");
  }

  /**
   * The filter clause. Null or empty filter text gives no clause; otherwise
   * the clause reads back as exactly three substring LIKE tests of the text,
   * on the track title, the artist name and the album title. Quotes in the
   * text are doubled (see FilterClauseAsWritten for the unescaped form).
   */
  function FilterClause(filter: Option<string>): (r: Option<string>)
    ensures r.None? <==> IsNullOrEmpty(filter)
    ensures r.Some? ==> DecodeFilter(r.value) == Some(FilterTests(filter.value))
  {
    if IsNullOrEmpty(filter) then None
    else
      DecodeFilterRender(FilterTests(filter.value));
      Some(RenderFilter(FilterTests(filter.value)))
  }

  /** One substring test as the source formats it, with the text unescaped. */
  function LikeAsWritten(column: string, text: string): string {
    column + " LIKE '%" + text + "%'"
  }

  /**
   * The filter clause as the source formats it: absent for a null or empty
   * filter, and otherwise a parenthesised clause whose first pattern holds
   * the text right after the opening `%`, unescaped.
   */
  function FilterClauseAsWritten(filter: Option<string>): (r: Option<string>)
    ensures r.None? <==> IsNullOrEmpty(filter)
    ensures r.Some? ==> StartsWith(r.value, " AND (" + TrackTitle + " LIKE '%" + filter.value)
                        && r.value[|r.value| - 1] == ')'
  {
    if IsNullOrEmpty(filter) then None
    else
      var f := filter.value;
      var text := " AND (" + LikeAsWritten(TrackTitle, f) + " OR " + LikeAsWritten(ArtistName, f)
                  + " OR " + LikeAsWritten(AlbumTitle, f) + ")";
      var open := " AND (" + TrackTitle + " LIKE '%" + f;
      SplitAfterText(" AND (", TrackTitle, " LIKE '%", f, "%'",
                     " OR " + LikeAsWritten(ArtistName, f) + " OR " + LikeAsWritten(AlbumTitle, f) + ")");
      PrefixOfConcat(open, "%'" + (" OR " + LikeAsWritten(ArtistName, f) + " OR " + LikeAsWritten(AlbumTitle, f) + ")"));
      Some(text)
  }

  lemma RenderLikeUnescaped(column: string, f: string)
    requires Escape("%" + f + "%") == "%" + f + "%"
    ensures RenderLike(LikeTest(column, "%" + f + "%")) == LikeAsWritten(column, f)
  {
  }

  lemma PatternWithoutQuotes(f: string)
    requires Quote !in f
    ensures Escape("%" + f + "%") == "%" + f + "%"
  {
    var p := "%" + f + "%";
    forall i | 0 <= i < |p| ensures p[i] != Quote {
      if 0 < i < |p| - 1 { assert p[i] == f[i - 1]; }
    }
  }

  lemma RenderFilterUnescaped(f: string)
    requires f != ""
    requires Escape("%" + f + "%") == "%" + f + "%"
    ensures RenderFilter(FilterTests(f)) == FilterClauseAsWritten(Some(f)).value
  {
    var ts := FilterTests(f);
    var l0 := LikeAsWritten(TrackTitle, f);
    var l1 := LikeAsWritten(ArtistName, f);
    var l2 := LikeAsWritten(AlbumTitle, f);
    RenderLikeUnescaped(TrackTitle, f);
    RenderLikeUnescaped(ArtistName, f);
    RenderLikeUnescaped(AlbumTitle, f);
    assert ts[1..] == [ts[1], ts[2]] && ts[1..][1..] == [ts[2]];
    assert RenderDisjunction(ts[1..][1..]) == l2;
    assert RenderDisjunction(ts[1..]) == l1 + " OR " + l2;
    assert RenderDisjunction(ts) == l0 + " OR " + (l1 + " OR " + l2);
    Regroup(" AND (", l0, " OR ", l1, l2, ")");
  }

  /** For filter text without quotes the escaped clause is the very text the source produces. */
  lemma FilterClauseMatchesSourceWithoutQuotes(filter: Option<string>)
    requires filter.Some? ==> Quote !in filter.value
    ensures FilterClause(filter) == FilterClauseAsWritten(filter)
  {
    if !IsNullOrEmpty(filter) {
      PatternWithoutQuotes(filter.value);
      RenderFilterUnescaped(filter.value);
    }
  }


  /** The first test read from a run is the first LIKE test read from it. */
  lemma DecodeDisjunctionFirst(s: string, t: LikeTest, rest: string)
    requires DecodeLike(s) == Some((t, rest))
    ensures DecodeDisjunction(s).Some? ==> DecodeDisjunction(s).value.0[0] == t
  {
  }

  lemma LikeAsWrittenSplit(column: string, before: string, after: string)
    ensures LikeAsWritten(column, before + [Quote] + after)
         == column + " LIKE '" + ("%" + before) + [Quote] + (after + "%'")
  {
    assert " LIKE '%" == " LIKE '" + "%";
  }

  /** The second and third tests of the source's clause, and the closing parenthesis. */
  function AsWrittenOthers(f: string): string {
    " OR " + LikeAsWritten(ArtistName, f) + " OR " + LikeAsWritten(AlbumTitle, f) + ")"
  }

  /** What follows the first quote of the filter text in the source's clause. */
  function AsWrittenTail(f: string, after: string): string {
    (after + "%'") + AsWrittenOthers(f)
  }

  lemma AsWrittenClauseShape(f: string)
    requires f != ""
    ensures FilterClauseAsWritten(Some(f)).value == " AND (" + (LikeAsWritten(TrackTitle, f) + AsWrittenOthers(f))
  {
    RegroupFirst(" AND (", LikeAsWritten(TrackTitle, f), " OR ", LikeAsWritten(ArtistName, f),
                 LikeAsWritten(AlbumTitle, f), ")");
  }

  lemma RenderLikePlain(column: string, body: string)
    requires Quote !in body
    ensures RenderLike(LikeTest(column, body)) == column + " LIKE '" + body + [Quote]
  {
  }

  /** In the source's clause the first LIKE literal ends at the first quote of the text. */
  lemma AsWrittenFirstLiteral(before: string, after: string)
    requires Quote !in before
    ensures var f := before + [Quote] + after;
            var s := FilterClauseAsWritten(Some(f)).value;
            StartsWith(s, " AND (")
            && s[6..] == RenderLike(LikeTest(TrackTitle, "%" + before)) + AsWrittenTail(f, after)
  {
    var f := before + [Quote] + after;
    var l0 := LikeAsWritten(TrackTitle, f);
    var body := "%" + before;
    AsWrittenClauseShape(f);
    LikeAsWrittenSplit(TrackTitle, before, after);
    assert Quote !in body;
    RenderLikePlain(TrackTitle, body);
    RegroupAround(" AND (", l0, AsWrittenOthers(f), TrackTitle, " LIKE '", body, [Quote], after + "%'");
    var first := RenderLike(LikeTest(TrackTitle, body));
    var x := first + AsWrittenTail(f, after);
    assert FilterClauseAsWritten(Some(f)).value == " AND (" + x;
    assert (" AND (" + x)[6..] == x;
  }

  /** A clause whose first test reads back with the wrong pattern does not read back as the filter's tests. */
  lemma WrongFirstPattern(s: string, column: string, body: string, tail: string, f: string)
    requires ' ' !in column
    requires tail == [] || tail[0] != Quote
    requires StartsWith(s, " AND (") && s[6..] == RenderLike(LikeTest(column, body)) + tail
    requires body != "%" + f + "%"
    ensures DecodeFilter(s) != Some(FilterTests(f))
  {
    DecodeLikeRender(LikeTest(column, body), tail);
    DecodeDisjunctionFirst(s[6..], LikeTest(column, body), tail);
  }

  /**
   * The source's clause misreads any filter text with a quote in it: the
   * first LIKE literal closes at that quote, so the clause does not read back
   * as the three intended tests.
   */
  lemma QuoteBreaksAsWrittenFilter(before: string, after: string)
    requires Quote !in before
    requires after == [] || after[0] != Quote
    ensures FilterClauseAsWritten(Some(before + [Quote] + after)).Some?
    ensures DecodeFilter(FilterClauseAsWritten(Some(before + [Quote] + after)).value)
            != Some(FilterTests(before + [Quote] + after))
  {
    var f := before + [Quote] + after;
    var s := FilterClauseAsWritten(Some(f)).value;
    AsWrittenFirstLiteral(before, after);
    var tail := AsWrittenTail(f, after);
    assert tail[0] != Quote;
    assert |"%" + before| < |"%" + f + "%"|;
    WrongFirstPattern(s, TrackTitle, "%" + before, tail, f);
  }

  /** Searching for `Don't` is such a case. */
  lemma DontBreaksAsWrittenFilter()
    ensures DecodeFilter(FilterClauseAsWritten(Some("Don't")).value) != Some(FilterTests("Don't"))
  {
    assert "Don't" == "Don" + [Quote] + "t";
    QuoteBreaksAsWrittenFilter("Don", "t");
  }

  // ---------------------------------------------------------------------------
  // Sort order
  // ---------------------------------------------------------------------------

  datatype SortType = Ascending | Descending

  function Toggle(t: SortType): (r: SortType)
    ensures r != t
  {
    if t == Ascending then Descending else Ascending
  }

  /**
   * A sortable column. `id` stands for the object's identity: the source
   * compares columns by reference, and the direction belongs to the object.
   */
  datatype SortColumn = SortColumn(id: nat, sortKey: Option<string>, sortType: SortType)

  /** One `<expression> ASC|DESC` term of an ORDER BY list. */
  datatype OrderTerm = OrderTerm(expr: string, dir: SortType)

  /** The direction keyword, with its leading space. */
  function AscDesc(t: SortType): (r: string)
    ensures r == " ASC" <==> t == Ascending
    ensures r == " DESC" <==> t == Descending
  {
    match t
    case Ascending => assert " DESC"[1] != " ASC"[1]; " ASC"
    case Descending => assert " DESC"[1] != " ASC"[1]; " DESC"
  }

  function Lower(column: string): string {
    "lower(" + column + ")"
  }

  /** The expression a sort key orders by: its column, compared case-insensitively unless numeric. */
  function KeyExpr(key: string): string
    requires key in SortKeys
  {
    if key == "track" then SortKeys[key] else Lower(SortKeys[key])
  }

  /** The four ordering expressions are pairwise different words. */
  lemma OrderExprsDistinct()
    ensures Lower(ArtistName) != Lower(AlbumTitle)
    ensures Lower(ArtistName) != TrackNumber && Lower(AlbumTitle) != TrackNumber
    ensures Lower(ArtistName) != Lower(TrackTitle) && Lower(AlbumTitle) != Lower(TrackTitle)
    ensures ' ' !in Lower(ArtistName) && ' ' !in Lower(AlbumTitle)
    ensures ' ' !in Lower(TrackTitle) && ' ' !in TrackNumber
  {
    assert Lower(ArtistName)[11] == 'r' && Lower(AlbumTitle)[11] == 'l' && Lower(TrackTitle)[10] == 'T';
    assert Lower(ArtistName)[10] == 'A' && Lower(AlbumTitle)[10] == 'A';
    assert TrackNumber[0] == 'C' && Lower(ArtistName)[0] == 'l' && Lower(AlbumTitle)[0] == 'l';
  }

  function Exprs(ts: seq<OrderTerm>): set<string> {
    set t | t in ts :: t.expr
  }

  /**
   * The ORDER BY terms for a sort key. Only the four keys of SortKeys sort.
   * Each sort is a three-column order, so ties are always broken: the key's
   * own expression carries the chosen direction, every other term is ASC,
   * no expression repeats, and artist name and album title always take part.
   */
  function SortTerms(key: Option<string>, dir: SortType): (r: Option<seq<OrderTerm>>)
    ensures r.Some? <==> key.Some? && key.value in SortKeys
    ensures r.Some? ==> |r.value| == 3
    ensures r.Some? ==> OrderTerm(KeyExpr(key.value), dir) in r.value
    ensures r.Some? ==> forall i :: 0 <= i < |r.value| && r.value[i].expr != KeyExpr(key.value) ==>
                          r.value[i].dir == Ascending
    ensures r.Some? ==> forall i, j :: 0 <= i < j < |r.value| ==> r.value[i].expr != r.value[j].expr
    ensures r.Some? ==> Lower(ArtistName) in Exprs(r.value) && Lower(AlbumTitle) in Exprs(r.value)
    ensures key == Some("artist") ==>
              r == Some([OrderTerm(KeyExpr("artist"), dir), OrderTerm(Lower(AlbumTitle), Ascending),
                         OrderTerm(TrackNumber, Ascending)])
    ensures key == Some("album") ==>
              r == Some([OrderTerm(KeyExpr("album"), dir), OrderTerm(Lower(ArtistName), Ascending),
                         OrderTerm(TrackNumber, Ascending)])
    ensures key == Some("track") || key == Some("title") ==>
              r == Some([OrderTerm(Lower(ArtistName), Ascending), OrderTerm(Lower(AlbumTitle), Ascending),
                         OrderTerm(KeyExpr(key.value), dir)])
  {
    var artist := Lower(ArtistName);
    var album := Lower(AlbumTitle);
    OrderExprsDistinct();
    if key == Some("track") then
      Some([OrderTerm(artist, Ascending), OrderTerm(album, Ascending), OrderTerm(TrackNumber, dir)])
    else if key == Some("artist") then
      Some([OrderTerm(artist, dir), OrderTerm(album, Ascending), OrderTerm(TrackNumber, Ascending)])
    else if key == Some("album") then
      Some([OrderTerm(album, dir), OrderTerm(artist, Ascending), OrderTerm(TrackNumber, Ascending)])
    else if key == Some("title") then
      Some([OrderTerm(artist, Ascending), OrderTerm(album, Ascending), OrderTerm(Lower(TrackTitle), dir)])
    else None
  }

  function RenderTerm(t: OrderTerm): string {
    t.expr + AscDesc(t.dir)
  }

  /** The terms joined by `, `. */
  function RenderOrder(ts: seq<OrderTerm>): string
    requires |ts| > 0
  {
    if |ts| == 1 then RenderTerm(ts[0])
    else RenderTerm(ts[0]) + ", " + RenderOrder(ts[1..])
  }

  /** Reads one ORDER BY term back, with the text after its direction keyword. */
  function DecodeTerm(s: string): (r: Option<(OrderTerm, string)>)
    ensures r.Some? ==> |r.value.1| < |s|
  {
    var (expr, rest) := ReadWord(s);
    if StartsWith(rest, " ASC") then Some((OrderTerm(expr, Ascending), rest[4..]))
    else if StartsWith(rest, " DESC") then Some((OrderTerm(expr, Descending), rest[5..]))
    else None
  }

  /** Reads a whole `, `-separated ORDER BY list back. */
  function DecodeOrder(s: string): (r: Option<seq<OrderTerm>>)
    ensures r.Some? ==> |r.value| > 0
    decreases |s|
  {
    match DecodeTerm(s)
    case None => None
    case Some((t, rest)) =>
      if rest == [] then Some([t])
      else if StartsWith(rest, ", ") then
        match DecodeOrder(rest[2..])
        case None => None
        case Some(ts) => Some([t] + ts)
      else None
  }

  predicate ExprsAreWords(ts: seq<OrderTerm>) {
    forall i :: 0 <= i < |ts| ==> ' ' !in ts[i].expr
  }

  lemma DecodeTermRender(t: OrderTerm, tail: string)
    requires ' ' !in t.expr
    requires tail == [] || tail[0] == ','
    ensures DecodeTerm(RenderTerm(t) + tail) == Some((t, tail))
  {
    var rest := AscDesc(t.dir) + tail;
    assert RenderTerm(t) + tail == t.expr + rest;
    ReadWordAppend(t.expr, rest);
    if t.dir == Ascending {
      assert rest[4..] == tail;
    } else {
      assert rest[..4] != " ASC" by { assert rest[1] == 'D'; }
      assert rest[5..] == tail;
    }
  }

  /** Rendering an ORDER BY list and reading it back gives the same terms. */
  lemma {:induction false} DecodeOrderRender(ts: seq<OrderTerm>)
    requires |ts| > 0 && ExprsAreWords(ts)
    ensures DecodeOrder(RenderOrder(ts)) == Some(ts)
  {
    if |ts| == 1 {
      DecodeTermRender(ts[0], []);
      assert RenderTerm(ts[0]) + [] == RenderTerm(ts[0]);
      assert [ts[0]] == ts;
    } else {
      var rest := ", " + RenderOrder(ts[1..]);
      assert RenderOrder(ts) == RenderTerm(ts[0]) + rest;
      DecodeTermRender(ts[0], rest);
      assert rest[2..] == RenderOrder(ts[1..]);
      DecodeOrderRender(ts[1..]);
      assert [ts[0]] + ts[1..] == ts;
    }
  }

  /**
   * The sort fragment for the current sort column. There is none for a null
   * column or an unrecognised key; otherwise it reads back as exactly the
   * three terms SortTerms gives for the column's key and direction.
   */
  function GenerateSortQueryPart(column: Option<SortColumn>): (r: Option<string>)
    ensures r.Some? <==> column.Some? && column.value.sortKey.Some? && column.value.sortKey.value in SortKeys
    ensures r.Some? ==> DecodeOrder(r.value) == SortTerms(column.value.sortKey, column.value.sortType)
  {
    if column.None? then None
    else
      match SortTerms(column.value.sortKey, column.value.sortType)
      case None => None
      case Some(ts) =>
        OrderExprsDistinct();
        assert ExprsAreWords(ts) by {
          forall i | 0 <= i < |ts| ensures ' ' !in ts[i].expr {
            assert ts[i].expr in Exprs(ts);
          }
        }
        DecodeOrderRender(ts);
        Some(RenderOrder(ts))
  }

  // ---------------------------------------------------------------------------
  // Condition, reload fragment and COUNT query
  // ---------------------------------------------------------------------------

  const FromTables := "FROM CoreTracks, CoreAlbums, CoreArtists"
  const FetchCondition := "CoreArtists.ArtistID = CoreTracks.ArtistID AND CoreAlbums.AlbumID = CoreTracks.AlbumID"

  /** The structural condition behind a keyword, or nothing when there is no condition. */
  function PrefixCondition(condition: Option<string>, prefix: string): (r: string)
    ensures r == "" <==> IsNullOrEmpty(condition)
    ensures !IsNullOrEmpty(condition) ==>
              |r| == |prefix| + |condition.value| + 3 && StartsWith(r, " " + prefix + " ")
              && r[|prefix| + 2..|r| - 1] == condition.value && r[|r| - 1] == ' '
  {
    if IsNullOrEmpty(condition) then ""
    else " " + prefix + " " + condition.value + " "
  }

  /** The condition as an extra conjunct of the WHERE part. */
  function ConditionFragment(condition: Option<string>): (r: string)
    ensures r == "" <==> IsNullOrEmpty(condition)
    ensures !IsNullOrEmpty(condition) ==>
              |r| == |condition.value| + 6 && StartsWith(r, " AND ")
              && r[5..|r| - 1] == condition.value && r[|r| - 1] == ' '
  {
    PrefixCondition(condition, "AND")
  }

  /**
   * The unfiltered base: tables, join, the fixed join condition and the
   * structural condition. It always ends in a space, so the `AND ` of an id
   * filter appended to it starts a new token.
   */
  function UnfilteredBase(join: Option<string>, condition: Option<string>): (r: string)
    ensures StartsWith(r, FromTables + OrEmpty(join) + " WHERE " + FetchCondition)
    ensures r[|FromTables + OrEmpty(join) + " WHERE " + FetchCondition|..] == " " + ConditionFragment(condition)
    ensures r[|r| - 1] == ' '
  {
    var head := FromTables + OrEmpty(join) + " WHERE " + FetchCondition;
    var r := head + " " + ConditionFragment(condition);
    assert r[..|head|] == head;
    r
  }

  /** The pieces of a reload fragment. */
  datatype ReloadPart =
    | Base(text: string)
    | ArtistIds(text: string)
    | AlbumIds(text: string)
    | TextFilter(text: string)
    | OrderBy(text: string)
  {
    /** The place of this kind of piece in the fixed assembly order. */
    function Rank(): nat {
      match this
      case Base(_) => 0
      case ArtistIds(_) => 1
      case AlbumIds(_) => 2
      case TextFilter(_) => 3
      case OrderBy(_) => 4
    }

    function Render(): string {
      match this
      case Base(t) => t
      case ArtistIds(t) => "AND " + t
      case AlbumIds(t) => "AND " + t
      case TextFilter(t) => t
      case OrderBy(t) => " ORDER BY " + t
    }
  }

  function Piece(o: Option<string>, part: ReloadPart): seq<ReloadPart> {
    if o.Some? then [part] else []
  }

  /** Kinds strictly increase along the pieces: the fixed order, each kind at most once. */
  predicate Ordered(ps: seq<ReloadPart>) {
    forall i, j :: 0 <= i < j < |ps| ==> ps[i].Rank() < ps[j].Rank()
  }

  lemma AppendPiece(ps: seq<ReloadPart>, o: Option<string>, part: ReloadPart)
    requires Ordered(ps)
    requires forall p :: p in ps ==> p.Rank() < part.Rank()
    ensures Ordered(ps + Piece(o, part))
    ensures forall p :: p in ps + Piece(o, part) <==> p in ps || (o.Some? && p == part)
  {
    var qs := ps + Piece(o, part);
    forall i, j | 0 <= i < j < |qs| ensures qs[i].Rank() < qs[j].Rank() {
      if j >= |ps| { assert qs[i] in ps; }
    }
  }

  /** The pieces before the sort: the base, then artist ids, album ids and the text filter when present. */
  function UnsortedParts(base: string, artistIds: Option<string>, albumIds: Option<string>,
                         filterQuery: Option<string>): (r: seq<ReloadPart>)
    ensures Ordered(r) && 1 <= |r| <= 4 && r[0] == Base(base)
    ensures forall p :: p in r ==> p.Rank() < 4
    ensures artistIds.Some? ==> ArtistIds(artistIds.value) in r
    ensures albumIds.Some? ==> AlbumIds(albumIds.value) in r
    ensures filterQuery.Some? ==> TextFilter(filterQuery.value) in r
    ensures forall p :: p in r && p.ArtistIds? ==> artistIds == Some(p.text)
    ensures forall p :: p in r && p.AlbumIds? ==> albumIds == Some(p.text)
    ensures forall p :: p in r && p.TextFilter? ==> filterQuery == Some(p.text)
  {
    var p0 := [Base(base)];
    var p1 := p0 + Piece(artistIds, ArtistIds(OrEmpty(artistIds)));
    AppendPiece(p0, artistIds, ArtistIds(OrEmpty(artistIds)));
    var p2 := p1 + Piece(albumIds, AlbumIds(OrEmpty(albumIds)));
    AppendPiece(p1, albumIds, AlbumIds(OrEmpty(albumIds)));
    var p3 := p2 + Piece(filterQuery, TextFilter(OrEmpty(filterQuery)));
    AppendPiece(p2, filterQuery, TextFilter(OrEmpty(filterQuery)));
    p3
  }

  /**
   * The pieces of the reload fragment. The base comes first and the pieces
   * follow in the fixed order artist ids, album ids, text filter, ORDER BY,
   * each present exactly when its fragment is not null.
   */
  function ReloadParts(base: string, artistIds: Option<string>, albumIds: Option<string>,
                       filterQuery: Option<string>, sortQuery: Option<string>): (r: seq<ReloadPart>)
    ensures 1 <= |r| <= 5 && r[0] == Base(base)
    ensures Ordered(r)
    ensures artistIds.Some? ==> ArtistIds(artistIds.value) in r
    ensures albumIds.Some? ==> AlbumIds(albumIds.value) in r
    ensures filterQuery.Some? ==> TextFilter(filterQuery.value) in r
    ensures sortQuery.Some? ==> OrderBy(sortQuery.value) in r
    ensures forall p :: p in r && p.ArtistIds? ==> artistIds == Some(p.text)
    ensures forall p :: p in r && p.AlbumIds? ==> albumIds == Some(p.text)
    ensures forall p :: p in r && p.TextFilter? ==> filterQuery == Some(p.text)
    ensures forall p :: p in r && p.OrderBy? ==> sortQuery == Some(p.text)
  {
    var u := UnsortedParts(base, artistIds, albumIds, filterQuery);
    AppendPiece(u, sortQuery, OrderBy(OrEmpty(sortQuery)));
    u + Piece(sortQuery, OrderBy(OrEmpty(sortQuery)))
  }

  function Concat(ps: seq<ReloadPart>): string {
    if |ps| == 0 then "" else ps[0].Render() + Concat(ps[1..])
  }

  lemma {:induction false} ConcatAppend(ps: seq<ReloadPart>, qs: seq<ReloadPart>)
    ensures Concat(ps + qs) == Concat(ps) + Concat(qs)
  {
    if |ps| == 0 {
      assert ps + qs == qs;
    } else {
      assert (ps + qs)[0] == ps[0];
      assert (ps + qs)[1..] == ps[1..] + qs;
      ConcatAppend(ps[1..], qs);
    }
  }

  /** The reload fragment: the text of its pieces, in order. */
  function ReloadFragment(join: Option<string>, condition: Option<string>, artistIds: Option<string>,
                          albumIds: Option<string>, filterQuery: Option<string>,
                          sortQuery: Option<string>): (r: string)
    ensures StartsWith(r, UnfilteredBase(join, condition))
  {
    var ps := ReloadParts(UnfilteredBase(join, condition), artistIds, albumIds, filterQuery, sortQuery);
    ConcatAppend([ps[0]], ps[1..]);
    assert [ps[0]] + ps[1..] == ps;
    assert Concat([ps[0]]) == ps[0].Render();
    Concat(ps)
  }

  /** The reload fragment is the text of the unsorted pieces followed by the ORDER BY piece, if any. */
  lemma SortedParts(base: string, artistIds: Option<string>, albumIds: Option<string>,
                    filterQuery: Option<string>, sortQuery: Option<string>)
    ensures var u := UnsortedParts(base, artistIds, albumIds, filterQuery);
            ReloadParts(base, artistIds, albumIds, filterQuery, sortQuery)
            == u + (if sortQuery.Some? then [OrderBy(sortQuery.value)] else [])
  {
  }

  /**
   * ORDER BY comes last: a sorted fragment is the unsorted fragment followed
   * by ` ORDER BY ` and the sort fragment.
   */
  lemma OrderByIsLast(join: Option<string>, condition: Option<string>, artistIds: Option<string>,
                      albumIds: Option<string>, filterQuery: Option<string>, sort: string)
    ensures ReloadFragment(join, condition, artistIds, albumIds, filterQuery, Some(sort))
         == ReloadFragment(join, condition, artistIds, albumIds, filterQuery, None) + " ORDER BY " + sort
  {
    OrderByPieceIsLast(UnfilteredBase(join, condition), artistIds, albumIds, filterQuery, sort);
  }

  lemma OrderByPieceIsLast(base: string, artistIds: Option<string>, albumIds: Option<string>,
                           filterQuery: Option<string>, sort: string)
    ensures Concat(ReloadParts(base, artistIds, albumIds, filterQuery, Some(sort)))
         == Concat(ReloadParts(base, artistIds, albumIds, filterQuery, None)) + " ORDER BY " + sort
  {
    var u := UnsortedParts(base, artistIds, albumIds, filterQuery);
    SortedParts(base, artistIds, albumIds, filterQuery, None);
    SortedParts(base, artistIds, albumIds, filterQuery, Some(sort));
    ConcatAppend(u, [OrderBy(sort)]);
    assert Concat([OrderBy(sort)]) == " ORDER BY " + sort;
    assert u + [] == u;
  }

  /**
   * The text filter follows the base and the id filters: an unsorted filtered
   * fragment is the unfiltered one followed by the filter clause.
   */
  lemma TextFilterFollowsIdFilters(join: Option<string>, condition: Option<string>, artistIds: Option<string>,
                                   albumIds: Option<string>, clause: string)
    ensures ReloadFragment(join, condition, artistIds, albumIds, Some(clause), None)
         == ReloadFragment(join, condition, artistIds, albumIds, None, None) + clause
  {
    TextFilterPieceFollows(UnfilteredBase(join, condition), artistIds, albumIds, clause);
  }

  lemma TextFilterPieceFollows(base: string, artistIds: Option<string>, albumIds: Option<string>, clause: string)
    ensures Concat(ReloadParts(base, artistIds, albumIds, Some(clause), None))
         == Concat(ReloadParts(base, artistIds, albumIds, None, None)) + clause
  {
    var ids := [Base(base)] + Piece(artistIds, ArtistIds(OrEmpty(artistIds))) + Piece(albumIds, AlbumIds(OrEmpty(albumIds)));
    UnsortedPartsPieces(base, artistIds, albumIds, None);
    UnsortedPartsPieces(base, artistIds, albumIds, Some(clause));
    SortedParts(base, artistIds, albumIds, None, None);
    SortedParts(base, artistIds, albumIds, Some(clause), None);
    assert ReloadParts(base, artistIds, albumIds, None, None) == ids;
    assert ReloadParts(base, artistIds, albumIds, Some(clause), None) == ids + [TextFilter(clause)];
    ConcatAppend(ids, [TextFilter(clause)]);
    assert Concat([TextFilter(clause)]) == clause;
  }

  lemma UnsortedPartsPieces(base: string, artistIds: Option<string>, albumIds: Option<string>,
                            filterQuery: Option<string>)
    ensures UnsortedParts(base, artistIds, albumIds, filterQuery)
         == [Base(base)] + Piece(artistIds, ArtistIds(OrEmpty(artistIds))) + Piece(albumIds, AlbumIds(OrEmpty(albumIds)))
            + Piece(filterQuery, TextFilter(OrEmpty(filterQuery)))
  {
  }

  /** Without id filters, text filter or sort the reload fragment is the unfiltered base itself. */
  lemma BareFragmentIsBase(join: Option<string>, condition: Option<string>)
    ensures ReloadFragment(join, condition, None, None, None, None) == UnfilteredBase(join, condition)
  {
    var b := UnfilteredBase(join, condition);
    assert ReloadParts(b, None, None, None, None) == [Base(b)];
    assert Concat([Base(b)]) == b + Concat([]);
  }

  /** The text an id filter adds to the fragment: `AND ` and the filter, or nothing. */
  function IdText(ids: Option<string>): string {
    if ids.Some? then "AND " + ids.value else ""
  }

  /**
   * The id filters follow the base: an unsorted fragment without a text
   * filter is the base, then `AND ` and the artist filter, then `AND ` and
   * the album filter, each when present.
   */
  lemma IdFiltersFollowBase(join: Option<string>, condition: Option<string>, artistIds: Option<string>,
                            albumIds: Option<string>)
    ensures ReloadFragment(join, condition, artistIds, albumIds, None, None)
         == UnfilteredBase(join, condition) + IdText(artistIds) + IdText(albumIds)
  {
    IdPiecesFollowBase(UnfilteredBase(join, condition), artistIds, albumIds);
  }

  lemma IdPiecesFollowBase(base: string, artistIds: Option<string>, albumIds: Option<string>)
    ensures Concat(ReloadParts(base, artistIds, albumIds, None, None)) == base + IdText(artistIds) + IdText(albumIds)
  {
    var p0 := [Base(base)];
    var pa := Piece(artistIds, ArtistIds(OrEmpty(artistIds)));
    var pb := Piece(albumIds, AlbumIds(OrEmpty(albumIds)));
    UnsortedPartsPieces(base, artistIds, albumIds, None);
    SortedParts(base, artistIds, albumIds, None, None);
    assert ReloadParts(base, artistIds, albumIds, None, None) == p0 + pa + pb;
    ConcatAppend(p0 + pa, pb);
    ConcatAppend(p0, pa);
    assert Concat(p0) == base + Concat([]);
    assert Concat(pa) == IdText(artistIds) by {
      if artistIds.Some? { assert Concat(pa) == pa[0].Render() + Concat([]); }
    }
    assert Concat(pb) == IdText(albumIds) by {
      if albumIds.Some? { assert Concat(pb) == pb[0].Render() + Concat([]); }
    }
  }

  /** The COUNT query for the unfiltered count: the base only, never an id filter, the text filter or the sort. */
  function CountQuery(join: Option<string>, condition: Option<string>): (r: string)
    ensures StartsWith(r, "SELECT COUNT(*) ")
    ensures r[16..] == UnfilteredBase(join, condition)
  {
    "SELECT COUNT(*) " + UnfilteredBase(join, condition)
  }
}

=== FILE: wrappers.dfy ===
/** Optional values, standing in for the null references of the C# program. */
module Wrappers {

  /** `None` plays the part of a null reference. */
  datatype Option<+T> = None | Some(value: T)
}
